=== FILE: README.md ===
# Webshop front end: a Dafny model of its list, cart and form logic

The webshop front end is a React application with two sides.

- A guest side lists the articles in stock. A sidebar narrows them by name prefix, a select box
  orders them by price, and "Add to Cart" merges an article into a cart kept in browser storage.
- An admin side holds an article table with text filters and a date sort, and a paginated order
  table. It also has an article editor, an "add article" form, and an order modal whose buttons
  set an order's status.

This project models the decision logic inside those React handlers as pure Dafny functions over
immutable sequences and records, and proves what they guarantee. The logic covers merging,
filtering, sorting, slicing, building request bodies, `parseInt`, and the small state machines
of the panels.

Every HTTP call, storage access and browser event becomes a parameter: an event carries the
outcome of its request (`JsValues.Response`), and the function returns what the handler would
send and what it would change. Timestamps are integers, and prices and quantities are whole
numbers.

Modules (one file each):

| module | file | models |
|---|---|---|
| `Text` | text.dfy | ASCII `toLowerCase`, `startsWith`, `includes`, integer `toString` |
| `JsValues` | js_values.dfy | JavaScript field values, plain objects, `String(v)`, `{ ...prev, [name]: value }`, request outcomes |
| `ParseInt` | parse_int.dfy | the global `parseInt` of ECMAScript (ECMA-262, section 19.2.5) |
| `Seqs` | seqs.dfy | `Array.prototype.filter`, subsequences |
| `Sorting` | sorting.dfy | the stable `Array.prototype.sort` with a numeric comparator |
| `Entities` | entities.dfy | articles, cart entries, orders |
| `Cart` | cart.dfy | `addToCart` of `ProductCard` and `ArticleDetailsGuest` |
| `GuestShop` | guest_shop.dfy | `WebshopGuestDashboard` and `FiltersSidebar` |
| `HomeArticles` | home_articles.dfy | the admin article table |
| `OrdersList` | orders_list.dfy | the admin order table and its pagination |
| `Payloads` | payloads.dfy | request bodies with converted number fields |
| `ArticlePanel` | article_panel.dfy | `ArticleDetailsPanel` |
| `AddArticle` | add_article.dfy | `AddArticleForm` |
| `OrderPanel` | order_panel.dfy | `OrderDetailsPanel` |

The order modal has no status transition rules and no stock adjustment: each button PUTs the
order with its status, whatever the current one. `OrderPanel.NoTransitionGuard` states this.

## Model

| member | source | states |
|---|---|---|
| Cart.LoadCart | src/components/ProductCard.jsx:8 | a missing stored cart reads as the empty cart, and a stored one as itself |
| Cart.FindIndex | src/components/ProductCard.jsx:9 | `findIndex` gives the first position holding the id, and -1 exactly when no entry has it |
| Cart.AddToCart | src/components/ProductCard.jsx:9-14 | an absent id appends `{id, name, price, quantity: 1}` at the end. A present id keeps the length, and only the first match gains one unit while keeping its own name and price. Entries with other ids stay in place, and the article is in the cart afterwards |
| Cart.AddToCartHandler | src/components/ProductCard.jsx:8-14 | a missing stored cart reads as empty, so the result is the single new entry; otherwise the total quantity rises by one |
| Cart.GuestAddToCart | src/components/ArticleDetailsGuest.jsx:20-33 | a null article renders nothing, so a merge happens exactly when an article is selected, and it is the same merge as the product card's |
| Cart.AddToCartTotal | src/components/ProductCard.jsx:9-14 | the total quantity of the cart rises by exactly one in both branches |
| Cart.TotalAppend | src/components/ProductCard.jsx:13 | appending an entry adds its quantity to the total |
| Cart.TotalUpdate | src/components/ProductCard.jsx:11 | replacing one entry changes the total by the difference of the two quantities |
| Cart.AddToCartKeepsIdsUnique | src/components/ArticleDetailsGuest.jsx:25-30 | if ids were unique before, they are unique after, and the article's entry is the only one with its id |
| Cart.AddToCartMatchesReference | src/components/ArticleDetailsGuest.jsx:24-30 | find-then-update-or-append equals an independent entry-by-entry walk that bumps the first match or appends |
| Cart.RepeatedClicks | src/components/ProductCard.jsx:6-17 | n clicks on one article, starting from no cart, leave one entry with quantity n |
| OrdersList.SortOrders | src/components/OrdersList.jsx:18-22 | the sorted copy is a permutation of the orders, ordered by creation date in the chosen direction |
| OrdersList.TotalPages | src/components/OrdersList.jsx:5-24 | `Math.ceil(n / 5)`: the fewest pages of five that hold n orders, and zero only for zero orders |
| OrdersList.Slice | src/components/OrdersList.jsx:25-28 | a slice is never longer than the list, is the plain sub-range for in-range bounds, and is empty when the end does not pass the start |
| OrdersList.Step | src/components/OrdersList.jsx:72-87 | Prev and Next move the page by exactly one when enabled and do nothing when disabled, so the page never moves otherwise; a successful fetch stores its orders and nothing else replaces them; only the toggle flips the direction |
| OrdersList.RelativeIndex | src/components/OrdersList.jsx:25-28 | a slice index is clamped to the array and leaves in-range indices unchanged |
| OrdersList.Page | src/components/OrdersList.jsx:25-28 | page p holds at most five orders and is the clamped slice `[(p-1)*5, p*5)`; a page beyond the last is empty |
| OrdersList.PagesUpToPrefix | src/components/OrdersList.jsx:24-28 | pages 1..k together are exactly the first 5k sorted orders |
| OrdersList.PagesCoverAll | src/components/OrdersList.jsx:24-28 | pages 1..totalPages together are the whole sorted list, so no order is lost or shown twice |
| OrdersList.FullPages | src/components/OrdersList.jsx:24-28 | every page before the last is full |
| OrdersList.PageStaysPositive | src/components/OrdersList.jsx:72-74 | Prev is disabled at page 1, so no event takes the page below 1 |
| OrdersList.PageStaysInRange | src/components/OrdersList.jsx:72-87 | with orders loaded and the page in range, Prev, Next and the sort toggle keep it in range |
| OrdersList.NoOrdersNextRunsAway | src/components/OrdersList.jsx:24-84 | with no orders there are 0 pages, Next is never disabled, and each click moves to a further, empty page |
| GuestShop.Available | src/pages/WebshopGuestDashboard.jsx:30 | the listed articles are a subsequence of the server's list; each article with quantity above 0 keeps every one of its occurrences, and every other article is dropped |
| GuestShop.SearchFilter | src/components/FiltersSidebar.jsx:9-11 | the sidebar list is a subsequence of the articles, and every kept article has a non-empty name whose lower-cased form starts with the lower-cased query. Every article with such a name keeps all its occurrences |
| GuestShop.NameStartsWith | src/components/FiltersSidebar.jsx:10 | the sidebar's test holds exactly when the name is non-empty, at least as long as the query, and its first characters fold to the query's character by character |
| GuestShop.Step | src/pages/WebshopGuestDashboard.jsx:16-93 | only a fetch replaces the listed articles; only a fetch or a keystroke in the shown sidebar replaces the filtered list; a newly selected article is one of the cards on screen; closing clears the selection and the modal; choosing a sort option sets the sort key and nothing else |
| GuestShop.GetSorted | src/pages/WebshopGuestDashboard.jsx:46-54 | a permutation of the input; "price-asc" gives non-decreasing and "price-desc" non-increasing prices, and any other key leaves the order unchanged |
| GuestShop.HandleFilter | src/pages/WebshopGuestDashboard.jsx:42-44 | the sidebar's list replaces the filtered list wholesale, and nothing else changes |
| GuestShop.InitialInvariant | src/pages/WebshopGuestDashboard.jsx:9-14 | the empty page satisfies the page invariant |
| GuestShop.FilteredInStock | src/pages/WebshopGuestDashboard.jsx:30-44 | under the invariant, every filtered article is in stock |
| GuestShop.StepInvariant | src/pages/WebshopGuestDashboard.jsx:16-54 | every event keeps the invariant: listed articles are in stock, the filtered list is drawn from them in order, and the details modal is open exactly when an article is selected |
| GuestShop.RunInvariant | src/pages/WebshopGuestDashboard.jsx:16-54 | any series of events keeps the invariant |
| GuestShop.VisibleInStock | src/pages/WebshopGuestDashboard.jsx:30-93 | whatever the user does, every card on screen shows an article in stock |
| GuestShop.FetchSetsBothLists | src/pages/WebshopGuestDashboard.jsx:27-35 | after a successful fetch both lists are the in-stock articles; a failed fetch, with or without an HTTP status, changes nothing |
| GuestShop.DetailsOpenClose | src/pages/WebshopGuestDashboard.jsx:16-24 | opening a card sets both the selected article and the modal flag, and closing clears both |
| GuestShop.GetSortedStable | src/pages/WebshopGuestDashboard.jsx:49-51 | articles of equal price keep their input order |
| GuestShop.EmptyQueryKeepsNamed | src/components/FiltersSidebar.jsx:10 | an empty query keeps exactly the articles with a non-empty name |
| GuestShop.NamelessNeverKept | src/components/FiltersSidebar.jsx:10 | an article without a name, or with an empty one, is never kept |
| GuestShop.SearchIgnoresCase | src/components/FiltersSidebar.jsx:10 | queries that differ only in ASCII letter case give the same list |
| GuestShop.ShorterQueryKeepsMore | src/components/FiltersSidebar.jsx:9-11 | the list for a prefix of the query contains the list for the query, so deleting characters brings articles back |
| GuestShop.SearchForgetsHistory | src/components/FiltersSidebar.jsx:6-13 | the list depends only on the articles and the current input, never on earlier input |
| HomeArticles.NameMatch | src/components/HomeArticles.jsx:22 | an empty name filter matches exactly the named products, and a match needs a name at least as long as the filter |
| HomeArticles.PriceMatch | src/components/HomeArticles.jsx:23 | an empty price filter matches everything; a product matches its own rendered price and never a longer text |
| HomeArticles.QuantityMatch | src/components/HomeArticles.jsx:24 | an empty quantity filter matches everything; a product matches its own rendered quantity and never a longer text |
| HomeArticles.FilterChain | src/components/HomeArticles.jsx:21-24 | the three chained filters keep a subsequence of the products: each product matching every active filter keeps all its occurrences, and every other product is dropped |
| HomeArticles.ChainIsOneFilter | src/components/HomeArticles.jsx:21-24 | the three filters in a row equal one filter by all three tests |
| HomeArticles.Filtered | src/components/HomeArticles.jsx:21-29 | the render throws exactly when some product has no name. Otherwise the rows hold each matching product as often as the products do and nothing else, ordered by creation date in the chosen direction |
| HomeArticles.Step | src/components/HomeArticles.jsx:11-57 | each filter input replaces only its own field and keeps the products and the direction; the sort button flips the direction and leaves the rest alone; a successful fetch replaces only the products, and a failed one changes nothing |
| HomeArticles.FilterEditsCommute | src/components/HomeArticles.jsx:37-53 | edits to different filter inputs commute, and a second edit of the same input overrides the first |
| HomeArticles.ToggleSortTwice | src/components/HomeArticles.jsx:52-57 | two presses of the sort button restore the state |
| HomeArticles.EmptyFiltersKeepAll | src/components/HomeArticles.jsx:21-29 | with every filter empty, the rows are a permutation of the products |
| HomeArticles.EmptyNameMatchesAll | src/components/HomeArticles.jsx:22 | an empty name filter matches every named product |
| HomeArticles.NameFilterIgnoresCase | src/components/HomeArticles.jsx:22 | the name filter is insensitive to the ASCII letter case of the filter text |
| HomeArticles.NameMatchIgnoresProductCase | src/components/HomeArticles.jsx:22 | the name filter is insensitive to the ASCII letter case of the product name |
| HomeArticles.QuantityFilterIsTextual | src/components/HomeArticles.jsx:24 | the quantity filter tests the decimal text: "1" keeps 10 and 21 but not 5 |
| HomeArticles.QuantityOnlyFilter | src/components/HomeArticles.jsx:21-24 | under a quantity-only filter, a product is listed exactly when its rendered quantity contains the filter text |
| HomeArticles.MissingNameThrows | src/components/HomeArticles.jsx:22 | a product without a name anywhere makes the render throw, whatever the filters |
| ParseInt.ParseInt | src/components/ArticleDetailsPanel.jsx:22 | a radix other than 0 outside 2..36 (after ToInt32) gives NaN; a number needs some text after the white space; only a leading '-' gives a negative result |
| ParseInt.RadixArgument | src/components/AddArticleForm.jsx:30 | ToInt32 of the radix lies in the signed 32-bit range and keeps values already in it; a missing radix reads as 0 |
| ParseInt.TrimStart | src/components/ArticleDetailsPanel.jsx:22 | the text read after trimming does not start with white space |
| ParseInt.TrimStartRemovesWhiteSpace | src/components/ArticleDetailsPanel.jsx:22 | trimming leaves a suffix of the input and removes only white space before it |
| ParseInt.DigitValue | src/components/ArticleDetailsPanel.jsx:22 | decimal digits have their numeric value, letters and digits are exactly the characters valued below 36, and a character is a decimal digit exactly when its value is below 10 |
| ParseInt.DigitValueIgnoresCase | src/components/ArticleDetailsPanel.jsx:22 | a letter digit has the same value in either case |
| ParseInt.DigitPrefixLen | src/components/ArticleDetailsPanel.jsx:22 | the digits read are the longest prefix of valid digits for the radix |
| ParseInt.AllDigitsPrefix | src/components/ArticleDetailsPanel.jsx:22 | text made only of digits is read entirely |
| ParseInt.NatStringValue | src/components/ArticleDetailsPanel.jsx:22 | the digits of a rendered natural number denote that number |
| ParseInt.ParseDecimalRoundTrip | src/components/ArticleDetailsPanel.jsx:22 | `parseInt(String(n), 10)` and `parseInt(String(n))` give back every integer n |
| ParseInt.SkipsLeadingWhiteSpace | src/components/ArticleDetailsPanel.jsx:22 | leading white space does not change the result, for any radix |
| ParseInt.StopsAtNonDigit | src/components/ArticleDetailsPanel.jsx:22 | reading stops at the first non-digit, so whatever follows the digits is ignored |
| ParseInt.TrailingGarbageExample | src/components/ArticleDetailsPanel.jsx:22 | "12abc" reads as 12; "" and "abc" read as NaN |
| ParseInt.EmptyIsNaN | src/components/ArticleDetailsPanel.jsx:22 | the empty string is NaN for every radix |
| ParseInt.NaNExactlyWithoutDigits | src/components/ArticleDetailsPanel.jsx:22 | in radix 10 the result is NaN exactly when no decimal digit follows the leading white space and optional sign |
| ParseInt.MinusNegates | src/components/ArticleDetailsPanel.jsx:22 | a leading '-' negates the result of the rest |
| ParseInt.NoRadixAgreesWithDecimal | src/components/AddArticleForm.jsx:30 | without a "0x" prefix, the call without a radix reads like radix 10 |
| ParseInt.HexPrefixExample | src/components/AddArticleForm.jsx:30 | "0x1A" is 26 without a radix but 0 with radix 10 |
| ParseInt.RadixWrapsAround | src/components/ArticleDetailsPanel.jsx:22 | the radix goes through a 32-bit ToInt32, so radices equal modulo 2^32 agree |
| ParseInt.BadRadixIsNaN | src/components/ArticleDetailsPanel.jsx:22 | a radix of 1, or from 37 up to 2^31-1, gives NaN |
| ArticlePanel.Step | src/components/ArticleDetailsPanel.jsx:10-70 | the article never changes; the parent hears something only after a request; a login redirect only follows a failed request; edits send nothing; the mode changes only by Edit, Cancel or a successful Save, and the form only by an edit or Cancel |
| ArticlePanel.Open | src/components/ArticleDetailsPanel.jsx:5-6 | the panel starts in view mode with the form equal to the article |
| ArticlePanel.SavePayload | src/components/ArticleDetailsPanel.jsx:19-23 | the body is the form with price and quantity replaced: quantity by `parseInt(String(form.quantity), 10)`, every other field verbatim |
| ArticlePanel.ChangeTouchesOneField | src/components/ArticleDetailsPanel.jsx:10-13 | an edit sets the named field and leaves every other field, the article and edit mode alone |
| ArticlePanel.SaveSuccess | src/components/ArticleDetailsPanel.jsx:25-38 | a successful save PUTs the payload of the current form, hands the server's answer to the parent and leaves edit mode |
| ArticlePanel.SaveFailure | src/components/ArticleDetailsPanel.jsx:39-46 | a failed save keeps the panel unchanged and tells the parent nothing; only 401/403 goes to the login page |
| ArticlePanel.CancelDiscardsEdits | src/components/ArticleDetailsPanel.jsx:186-190 | Cancel after any edits restores the panel as it was opened |
| ArticlePanel.ApplyChangesKeeps | src/components/ArticleDetailsPanel.jsx:10-13 | field edits keep edit mode and the article |
| ArticlePanel.DeleteOutcomes | src/components/ArticleDetailsPanel.jsx:49-61 | a declined confirmation sends nothing and changes nothing; a successful delete tells the parent `null` |
| ArticlePanel.UneditedSaveKeepsQuantity | src/components/ArticleDetailsPanel.jsx:19-23 | saving an untouched integer quantity sends the same number back |
| ArticlePanel.EditedQuantityExamples | src/components/ArticleDetailsPanel.jsx:22 | an edited quantity "12abc" saves 12, "0x1A" saves 0 and "" saves NaN |
| AddArticle.InitialForm | src/components/AddArticleForm.jsx:8-14 | the form has exactly the five fields, each the empty string |
| AddArticle.HandleChange | src/components/AddArticleForm.jsx:18-21 | the named field takes the typed text and every other field is unchanged |
| AddArticle.Type | src/components/AddArticleForm.jsx:18-21 | keystrokes add the fields they name and leave every field no keystroke names unchanged |
| AddArticle.TypeLastWins | src/components/AddArticleForm.jsx:18-21 | after any keystrokes each field holds the last text typed into it, or its earlier value |
| AddArticle.SubmitPayload | src/components/AddArticleForm.jsx:26-33 | the body has exactly the keys name, description, price, quantity, image_url and created_at |
| AddArticle.TextFieldsVerbatim | src/components/AddArticleForm.jsx:26-32 | name, description and image URL are sent as typed, and created_at is the submit time |
| AddArticle.QuantityNotRangeChecked | src/components/AddArticleForm.jsx:30 | `handleSubmit` performs no range check of its own: any whole number that reaches it as the quantity, zero and negatives included, is sent as that number |
| AddArticle.ZeroAndNegativeQuantity | src/components/AddArticleForm.jsx:30 | `handleSubmit` turns "0" into 0 and "-5" into -5 |
| AddArticle.HexQuantity | src/components/AddArticleForm.jsx:30 | "0x1A" is sent as 26, where the article editor's radix-10 call gives 0 |
| AddArticle.QuantityAgreesWithRadixTen | src/components/AddArticleForm.jsx:30 | without a "0x" prefix, this form reads a quantity as radix 10 does |
| AddArticle.Submit | src/components/AddArticleForm.jsx:23-43 | the POST carries the payload; the page goes to the dashboard's home section exactly when the POST succeeds, and the form is unchanged |
| AddArticle.FailedSubmitKeepsForm | src/components/AddArticleForm.jsx:40-42 | a rejected POST keeps the form and does not navigate |
| OrderPanel.Open | src/components/OrderDetailsPanel.jsx:7 | the displayed status starts as the order's status |
| OrderPanel.WithStatus | src/components/OrderDetailsPanel.jsx:19 | the updated order has the new status and every other field of the order |
| OrderPanel.WithStatusOnlyStatus | src/components/OrderDetailsPanel.jsx:19 | restoring the old status gives back the original order |
| OrderPanel.ChangeStatus | src/components/OrderDetailsPanel.jsx:17-26 | the PUT is sent for the order's id with the updated order. On success the displayed status and the order given to the parent take the new status; on failure neither changes |
| OrderPanel.NoTransitionGuard | src/components/OrderDetailsPanel.jsx:17-77 | from any displayed status each button's status can be set, the current one included |
| OrderPanel.ShownMatchesReported | src/components/OrderDetailsPanel.jsx:21-22 | after success the displayed status equals the status handed to the parent |
| OrderPanel.Clicks | src/components/OrderDetailsPanel.jsx:17-26 | after any clicks the prop is unchanged and the status shown is the opening one or the status of some successful click |
| OrderPanel.ClicksShowLastAccepted | src/components/OrderDetailsPanel.jsx:17-26 | after any clicks, when each PUT resolves before the next click, the modal shows the status of the last successful one, and failed PUTs leave no trace |
| OrderPanel.RequestFromProp | src/components/OrderDetailsPanel.jsx:19-20 | every request is built from the order prop with the clicked status, whatever the modal shows |
| Text.Lower | src/components/FiltersSidebar.jsx:10 | lower-casing keeps the length and folds each ASCII letter |
| Text.LowerOfUpper | src/components/FiltersSidebar.jsx:10 | folding an upper-cased string gives the same as folding the original |
| Text.DecimalString | src/components/HomeArticles.jsx:24 | an integer renders as an optional '-' and its digits, without leading zeros |
| JsValues.SetField | src/components/ArticleDetailsPanel.jsx:12 | `{ ...prev, [name]: value }` sets the named field and keeps every other |
| JsValues.SetFieldLastWins | src/components/ArticleDetailsPanel.jsx:10-13 | typing into a field twice keeps only the last text |
| Seqs.Filter | src/pages/WebshopGuestDashboard.jsx:30 | `filter` keeps every element that passes the test and nothing else |
| Seqs.FilterCounts | src/pages/WebshopGuestDashboard.jsx:30 | `filter` keeps every occurrence of an element that passes and none of one that fails |
| Seqs.FilterFilter | src/components/HomeArticles.jsx:21-24 | filtering twice is filtering once by both tests |
| Seqs.FilterIsSubsequence | src/components/FiltersSidebar.jsx:9 | filtering keeps the survivors in their original relative order |
| Sorting.SortBy | src/components/OrdersList.jsx:18 | sorting a copy yields a permutation of the input |
| Sorting.SortByOrdered | src/components/OrdersList.jsx:18-22 | the sorted copy is ordered by the key in the requested direction |
| Sorting.SortByStable | src/pages/WebshopGuestDashboard.jsx:49-51 | elements with equal keys keep their input order, as the stable `Array.prototype.sort` does |
| Sorting.SortByOrderedInput | src/components/HomeArticles.jsx:25-29 | an input already in order comes back unchanged |

## Left out

- HTTP calls, `localStorage`, `JSON.parse`/`JSON.stringify`, the "cartUpdated" event and the token handling are I/O. Each request appears only as the outcome its event carries, and the model returns what would be sent.
- Redirects and `navigate` are returned as values (`toLogin`, `AddArticle.Navigation`) rather than performed.
- `parseFloat` and fractional prices are floating-point behaviour. The price in a request body is kept as the text it would be parsed from (`Payloads.FloatOf`), and prices elsewhere are whole numbers.
- HomeArticles.PriceMatch: the price filter renders the price as an integer, so the text of a fractional price such as "9.99" is not modelled.
- `new Date(...)` parsing, `toISOString` and `toLocaleString` are left out. `created_at` is an integer timestamp, and the submit time is a string parameter.
- Text.Lower: folds ASCII letters only; full Unicode `toLowerCase` (for example the Serbian letters Č, Š, Ž) is not modelled.
- ParseInt.Number: has no -0 and no rounding of results above 2^53, so `parseInt` is exact on every digit string.
- Text.DecimalString: renders every integer in plain digits, while JavaScript switches to exponent form from 1e21.
- Browser input handling is left out: `type="number"` sanitising, `required` and `min="1"` are not modelled. The handlers receive whatever text the event carries.
- JSX rendering, styling, the click-outside listeners and the `onClose` callbacks are left out. Events only arrive from a control the current mode shows.
- The two identical `addToCart` copies in `ProductCard` and `ArticleDetailsGuest` are modelled once (`Cart.AddToCart`).
- `Login`, `AdminDashboard`, `Landing`, `App` and `ShoppingChart` are routing, authentication and static UI, and are not part of this model.
- Stock adjustment on a status change: the order modal only PUTs the order with its new status; no article quantity changes.
- Entities.Article: `price` and `quantity` are always present integers, so the TypeError that `p.price.toString()` or `p.quantity.toString()` throws for a product missing either field, under a non-empty price or quantity filter, is not modelled (only a missing name is).
- Overlapping requests: each handler's request is taken to resolve before the next event. Clicks made while a PUT or POST is pending (a second status button, a second Save or a Cancel while saving, a double submit), and requests resolving out of order, are not modelled.
- Whole numbers (quantities, prices, ids, page numbers, cart totals) are exact, unbounded integers, while JavaScript numbers are doubles; beyond 2^53 an increment such as `quantity += 1` no longer changes the value, and that is not modelled.
- ParseInt.TrimStart: its own contract states only that the result does not start with white space; that the result is the input minus exactly its leading white space is `ParseInt.TrimStartRemovesWhiteSpace`, kept as a separate lemma because every `parseInt` proof would otherwise carry it.

=== FILE: add_article.dfy ===
/** The admin "Add New Article" form (`AddArticleForm`): five text inputs, and a submit that
    POSTs a payload built from them and, once the server accepts it, returns to the
    dashboard's home section. */
module AddArticle {
  import opened JsValues
  import opened Payloads
  import ParseInt
  import Text

  /** The five inputs, in the order the form shows them. */
  const FieldNames: seq<string> := ["name", "description", "price", "quantity", "image_url"]

  /** The keys of the POST body: the five inputs and the creation time. */
  const PayloadKeys: set<string> := {"name", "description", "price", "quantity", "image_url", "created_at"}

  /** The form as first rendered. */
  function InitialForm(): (form: Record)
    ensures form.Keys == set k | k in FieldNames
    ensures |form.Keys| == 5
    ensures forall k :: k in form ==> form[k] == Str("")
  {
    assert (set k | k in FieldNames) == {"name", "description", "price", "quantity", "image_url"};
    map k | k in FieldNames :: Str("")
  }

  /** `handleChange`: the input named by the event takes the typed text. */
  function HandleChange(form: Record, name: string, value: string): (r: Record)
    ensures Get(r, name) == Str(value)
    ensures forall k :: k != name ==> Get(r, k) == Get(form, k)
  {
    SetField(form, name, value)
  }

  /** The body `handleSubmit` sends. Only the five named inputs are read (an extra key in the
      form is not sent); `created_at` is the ISO time of the click, given as `now`. The
      quantity goes through `parseInt` without a radix, the price through `parseFloat`. */
  function SubmitPayload(form: Record, now: string): (p: Payload)
    ensures p.Keys == PayloadKeys
  {
    map[
      "name" := Copied(Get(form, "name")),
      "description" := Copied(Get(form, "description")),
      "price" := FloatOf(ToString(Get(form, "price"))),
      "quantity" := IntOf(ParseInt.ParseNoRadix(ToString(Get(form, "quantity")))),
      "image_url" := Copied(Get(form, "image_url")),
      "created_at" := Copied(Str(now))]
  }

  /** `navigate("/admin-dashboard", { state: { section: "home" } })`. */
  datatype Navigation = Navigation(path: string, section: string)

  const BackHome := Navigation("/admin-dashboard", "home")

  /** What one submit does: the body POSTed and where the page goes afterwards. */
  datatype SubmitResult = SubmitResult(posted: Payload, navigation: Option<Navigation>)

  /** `handleSubmit`: the POST is always sent; the page navigates only when it resolves. A
      rejected POST is only logged, and the form keeps its values. */
  function Submit(form: Record, now: string, outcome: Response<()>): (r: (Record, SubmitResult))
    ensures r.0 == form
    ensures r.1.posted == SubmitPayload(form, now)
    ensures r.1.navigation.Some? <==> outcome.Ok?
    ensures r.1.navigation.Some? ==> r.1.navigation.value == BackHome
  {
    var result := if outcome.Ok? then SubmitResult(SubmitPayload(form, now), Some(BackHome))
                  else SubmitResult(SubmitPayload(form, now), None);
    (form, result)
  }

  /** A series of keystrokes: the fields typed into are added, and a field no keystroke names
      keeps its value. */
  function Type(form: Record, edits: seq<(string, string)>): (r: Record)
    ensures r.Keys == form.Keys + set i | 0 <= i < |edits| :: edits[i].0
    ensures forall k :: (forall i :: 0 <= i < |edits| ==> edits[i].0 != k) ==> Get(r, k) == Get(form, k)
    decreases |edits|
  {
    if |edits| == 0 then form else Type(HandleChange(form, edits[0].0, edits[0].1), edits[1..])
  }

  /** The value of field `k` after the edits: the last text typed into it, or its value before. */
  function LastTyped(form: Record, edits: seq<(string, string)>, k: string): Value
    decreases |edits|
  {
    if |edits| == 0 then Get(form, k)
    else if edits[|edits| - 1].0 == k then Str(edits[|edits| - 1].1)
    else LastTyped(form, edits[..|edits| - 1], k)
  }

  // ---------------------------------------------------------------------------
  // Properties

  /** After any keystrokes, each field holds the last text typed into it, and a field never
      typed into keeps its initial value. */
  lemma {:induction false} TypeLastWins(form: Record, edits: seq<(string, string)>, k: string)
    ensures Get(Type(form, edits), k) == LastTyped(form, edits, k)
    decreases |edits|
  {
    if |edits| > 0 {
      var f1 := HandleChange(form, edits[0].0, edits[0].1);
      var rest := edits[1..];
      TypeLastWins(f1, rest, k);
      LastTypedShift(form, edits, k);
    }
  }

  /** Peeling the first edit off the front instead of the last one off the back. */
  lemma {:induction false} LastTypedShift(form: Record, edits: seq<(string, string)>, k: string)
    requires |edits| > 0
    ensures LastTyped(HandleChange(form, edits[0].0, edits[0].1), edits[1..], k) == LastTyped(form, edits, k)
    decreases |edits|
  {
    var f1 := HandleChange(form, edits[0].0, edits[0].1);
    if |edits| > 1 {
      var n := |edits|;
      if edits[n - 1].0 != k {
        assert edits[1..][..n - 2] == edits[..n - 1][1..];
        LastTypedShift(form, edits[..n - 1], k);
      }
    }
  }

  /** Name, description and image URL reach the server exactly as typed, and `created_at` is
      the submit time. */
  lemma TextFieldsVerbatim(form: Record, now: string)
    ensures SubmitPayload(form, now)["name"] == Copied(Get(form, "name"))
    ensures SubmitPayload(form, now)["description"] == Copied(Get(form, "description"))
    ensures SubmitPayload(form, now)["image_url"] == Copied(Get(form, "image_url"))
    ensures SubmitPayload(form, now)["created_at"] == Copied(Str(now))
  {
  }

  /** `handleSubmit` performs no range check of its own: any whole number that reaches it as the
      quantity, zero and negative ones included, is sent as that number. */
  lemma QuantityNotRangeChecked(form: Record, now: string, n: int)
    ensures SubmitPayload(HandleChange(form, "quantity", Text.DecimalString(n)), now)["quantity"]
         == IntOf(ParseInt.Finite(n))
  {
    ParseInt.ParseDecimalRoundTrip(n);
  }

  /** "0" and "-5" are accepted as they are. */
  lemma ZeroAndNegativeQuantity(form: Record, now: string)
    ensures SubmitPayload(HandleChange(form, "quantity", "0"), now)["quantity"] == IntOf(ParseInt.Finite(0))
    ensures SubmitPayload(HandleChange(form, "quantity", "-5"), now)["quantity"] == IntOf(ParseInt.Finite(-5))
  {
    QuantityNotRangeChecked(form, now, 0);
    QuantityNotRangeChecked(form, now, -5);
    assert Text.DecimalString(0) == "0";
    assert Text.DecimalString(-5) == "-5";
  }

  /** Without a radix, a "0x" quantity is read as hexadecimal: this form sends 26 for "0x1A"
      where the edit panel, which passes radix 10, would send 0. */
  lemma HexQuantity(form: Record, now: string)
    ensures SubmitPayload(HandleChange(form, "quantity", "0x1A"), now)["quantity"] == IntOf(ParseInt.Finite(26))
    ensures ParseInt.ParseDecimal("0x1A") == ParseInt.Finite(0)
  {
    ParseInt.HexPrefixExample();
  }

  /** Apart from a "0x"/"0X" prefix the two forms read a quantity alike. */
  lemma QuantityAgreesWithRadixTen(form: Record, now: string, text: string)
    requires !ParseInt.HasHexPrefix(ParseInt.Unsigned(ParseInt.TrimStart(text)))
    ensures SubmitPayload(HandleChange(form, "quantity", text), now)["quantity"]
         == IntOf(ParseInt.ParseDecimal(text))
  {
    ParseInt.NoRadixAgreesWithDecimal(text);
  }

  /** A rejected POST leaves the user on the form with the typed values, ready to resubmit. */
  lemma FailedSubmitKeepsForm(form: Record, now: string, status: Option<int>)
    ensures Submit(form, now, Failed(status)).0 == form
    ensures Submit(form, now, Failed(status)).1.navigation == None
  {
  }
}

=== FILE: article_panel.dfy ===
/** The admin article panel (`ArticleDetailsPanel`): a view mode with Edit/Delete and an edit
    mode with a form, Save and Cancel. The article and the form are plain objects; the HTTP
    calls appear as the outcome their event carries. */
module ArticlePanel {
  import opened JsValues
  import opened Payloads
  import ParseInt

  /** `{ ...form, price: parseFloat(form.price), quantity: parseInt(form.quantity, 10) }`. */
  function SavePayload(form: Record): (p: Payload)
    ensures p.Keys == form.Keys + {"price", "quantity"}
    ensures forall k :: k in form && k != "price" && k != "quantity" ==> p[k] == Copied(form[k])
    ensures p["quantity"] == IntOf(ParseInt.ParseDecimal(ToString(Get(form, "quantity"))))
    ensures p["price"] == FloatOf(ToString(Get(form, "price")))
  {
    (map k | k in form :: Copied(form[k]))
      ["price" := FloatOf(ToString(Get(form, "price")))]
      ["quantity" := IntOf(ParseInt.ParseDecimal(ToString(Get(form, "quantity"))))]
  }

  datatype Request = PutArticle(id: Value, body: Payload) | DeleteArticle(id: Value)

  /** What the parent hears through `onUpdate`: nothing, the saved article, or `null` after a
      delete. */
  datatype Notice = Silent | Updated(article: Record) | Removed

  /** The visible outcome of one event: the request sent (if any), the parent notice, and
      whether a 401/403 answer dropped the token and redirected to the login page. */
  datatype Reaction = Reaction(request: Option<Request>, notice: Notice, toLogin: bool)

  const Quiet := Reaction(None, Silent, false)

  datatype Panel = Panel(article: Record, editing: bool, form: Record)

  /** `isEditing = false`, `form = { ...article }`. */
  function Open(article: Record): (p: Panel)
    ensures !p.editing && p.form == p.article == article
  {
    Panel(article, false, article)
  }

  datatype PanelEvent =
    | Edit
    | Change(name: string, value: string)
    | Save(outcome: Response<Record>)
    | Cancel
    | Delete(confirmed: bool, deleted: Response<()>)

  /** One event. Edit and Delete are buttons of the view mode, the inputs, Save and Cancel
      belong to the edit mode; an event of the other mode has no control to come from and
      changes nothing. */
  function Step(p: Panel, e: PanelEvent): (r: (Panel, Reaction))
    // the article prop is never changed by the panel
    ensures r.0.article == p.article
    // the parent hears something only after a request was sent
    ensures r.1.notice != Silent ==> r.1.request.Some?
    // a redirect to the login page only follows a request that failed
    ensures r.1.toLogin ==> r.1.request.Some? && r.1.notice == Silent
    // edits send nothing
    ensures e.Change? ==> r.1 == Quiet
    // the mode changes only by Edit, Cancel or a successful Save
    ensures r.0.editing != p.editing ==> e.Edit? || e.Cancel? || (e.Save? && e.outcome.Ok?)
    // the form changes only by an edit or by Cancel
    ensures r.0.form != p.form ==> e.Change? || e.Cancel?
  {
    match e
    case Edit =>
      if p.editing then (p, Quiet) else (p.(editing := true), Quiet)
    case Change(name, value) =>
      if p.editing then (p.(form := SetField(p.form, name, value)), Quiet) else (p, Quiet)
    case Save(outcome) =>
      if !p.editing then (p, Quiet)
      else
        var request := Some(PutArticle(Get(p.article, "id"), SavePayload(p.form)));
        if outcome.Ok? then (p.(editing := false), Reaction(request, Updated(outcome.body), false))
        else (p, Reaction(request, Silent, outcome.Unauthorized()))
    case Cancel =>
      if p.editing then (p.(editing := false, form := p.article), Quiet) else (p, Quiet)
    case Delete(confirmed, deleted) =>
      if p.editing || !confirmed then (p, Quiet)
      else
        var request := Some(DeleteArticle(Get(p.article, "id")));
        if deleted.Ok? then (p, Reaction(request, Removed, false))
        else (p, Reaction(request, Silent, deleted.Unauthorized()))
  }

  /** A series of field edits. */
  function ApplyChanges(p: Panel, changes: seq<(string, string)>): Panel
    decreases |changes|
  {
    if |changes| == 0 then p
    else ApplyChanges(Step(p, Change(changes[0].0, changes[0].1)).0, changes[1..])
  }

  // ---------------------------------------------------------------------------
  // Properties

  /** A field edit changes only the named field, and only in edit mode. */
  lemma ChangeTouchesOneField(p: Panel, name: string, value: string)
    requires p.editing
    ensures Get(Step(p, Change(name, value)).0.form, name) == Str(value)
    ensures forall k :: k != name ==> Get(Step(p, Change(name, value)).0.form, k) == Get(p.form, k)
    ensures Step(p, Change(name, value)).0.article == p.article
    ensures Step(p, Change(name, value)).0.editing
  {
  }

  /** A successful save sends the payload of the current form, hands the server's answer to
      the parent and leaves edit mode; the form keeps the edits. */
  lemma SaveSuccess(p: Panel, saved: Record)
    requires p.editing
    ensures Step(p, Save(Ok(saved))).1.request == Some(PutArticle(Get(p.article, "id"), SavePayload(p.form)))
    ensures Step(p, Save(Ok(saved))).1.notice == Updated(saved)
    ensures !Step(p, Save(Ok(saved))).0.editing
    ensures Step(p, Save(Ok(saved))).0.form == p.form
  {
  }

  /** A failed save stays in edit mode with the form as it was and tells the parent nothing;
      only a 401 or 403 sends the user to the login page. */
  lemma SaveFailure(p: Panel, status: Option<int>)
    requires p.editing
    ensures Step(p, Save(Failed(status))).0 == p
    ensures Step(p, Save(Failed(status))).1.notice == Silent
    ensures Step(p, Save(Failed(status))).1.toLogin <==> status == Some(401) || status == Some(403)
  {
  }

  /** Cancel after any number of edits restores the panel as it was opened. */
  lemma {:induction false} CancelDiscardsEdits(article: Record, changes: seq<(string, string)>)
    ensures Step(ApplyChanges(Step(Open(article), Edit).0, changes), Cancel).0 == Open(article)
  {
    ApplyChangesKeeps(Step(Open(article), Edit).0, changes);
  }

  lemma {:induction false} ApplyChangesKeeps(p: Panel, changes: seq<(string, string)>)
    requires p.editing
    ensures ApplyChanges(p, changes).editing
    ensures ApplyChanges(p, changes).article == p.article
    decreases |changes|
  {
    if |changes| > 0 {
      ApplyChangesKeeps(Step(p, Change(changes[0].0, changes[0].1)).0, changes[1..]);
    }
  }

  /** A declined confirmation sends no request and leaves the parent uninformed; a confirmed
      and successful delete tells the parent `null`. */
  lemma DeleteOutcomes(p: Panel, deleted: Response<()>)
    requires !p.editing
    ensures Step(p, Delete(false, deleted)) == (p, Quiet)
    ensures Step(p, Delete(true, Ok(()))).1 == Reaction(Some(DeleteArticle(Get(p.article, "id"))), Removed, false)
  {
  }

  /** Saving without touching a field sends the article's own integer quantity back:
      `parseInt(String(n), 10) == n`. The other fields, price apart, are copied verbatim. */
  lemma UneditedSaveKeepsQuantity(article: Record, n: int)
    requires Get(article, "quantity") == Num(n)
    ensures SavePayload(article)["quantity"] == IntOf(ParseInt.Finite(n))
    ensures forall k :: k in article && k != "price" && k != "quantity" ==>
      SavePayload(article)[k] == Copied(article[k])
  {
    ParseInt.ParseDecimalRoundTrip(n);
  }

  /** An edited quantity is read with radix 10: "12abc" saves 12, "0x1A" saves 0, "" saves NaN. */
  lemma EditedQuantityExamples(form: Record)
    ensures SavePayload(SetField(form, "quantity", "12abc"))["quantity"] == IntOf(ParseInt.Finite(12))
    ensures SavePayload(SetField(form, "quantity", "0x1A"))["quantity"] == IntOf(ParseInt.Finite(0))
    ensures SavePayload(SetField(form, "quantity", ""))["quantity"] == IntOf(ParseInt.NaN)
  {
    ParseInt.TrailingGarbageExample();
    ParseInt.HexPrefixExample();
  }
}

=== FILE: cart.dfy ===
/** "Add to Cart": the merge that `ProductCard` and `ArticleDetailsGuest` both perform on the
    cart kept under the "cart" key: find the first entry with the article's id and bump its
    quantity, or append a fresh entry with quantity 1. The two components carry identical
    copies of this code; it is modelled once. Reading and writing the storage, and the
    "cartUpdated" event, are the I/O around it. */
module Cart {
  import opened JsValues
  import opened Entities

  /** `JSON.parse(localStorage.getItem("cart")) || []`: a missing cart reads as empty. */
  function LoadCart(stored: Option<seq<CartItem>>): (cart: seq<CartItem>)
    ensures stored.None? ==> cart == [] && TotalQuantity(cart) == 0
    ensures stored.Some? ==> cart == stored.value
  {
    stored.GetOr([])
  }

  /** The entry `{ id, name, price, quantity: 1 }` appended for an article not yet in the cart. */
  function NewItem(a: Article): CartItem {
    CartItem(a.id, a.name, a.price, 1)
  }

  /** `i` is the first position holding `id`. */
  predicate FirstIndexOf(cart: seq<CartItem>, id: int, i: int) {
    0 <= i < |cart| && cart[i].id == id && forall j :: 0 <= j < i ==> cart[j].id != id
  }

  predicate HasId(cart: seq<CartItem>, id: int) {
    exists j :: 0 <= j < |cart| && cart[j].id == id
  }

  /** No two entries share an id. */
  predicate UniqueIds(cart: seq<CartItem>) {
    forall i, j :: 0 <= i < j < |cart| ==> cart[i].id != cart[j].id
  }

  /** Sum of the quantities of all entries. */
  function TotalQuantity(cart: seq<CartItem>): int
    decreases |cart|
  {
    if |cart| == 0 then 0 else cart[0].quantity + TotalQuantity(cart[1..])
  }

  /** `cart.findIndex(item => item.id === id)`: the first matching position, or -1. */
  function FindIndex(cart: seq<CartItem>, id: int): (i: int)
    ensures i == -1 || FirstIndexOf(cart, id, i)
    ensures i == -1 <==> !HasId(cart, id)
    decreases |cart|
  {
    if |cart| == 0 then -1
    else if cart[0].id == id then 0
    else
      var k := FindIndex(cart[1..], id);
      if k < 0 then -1 else k + 1
  }

  /** The merge of one article into the cart. */
  function AddToCart(cart: seq<CartItem>, a: Article): (r: seq<CartItem>)
    // absent: the old cart with the new entry appended at the end
    ensures !HasId(cart, a.id) ==> r == cart + [CartItem(a.id, a.name, a.price, 1)]
    // present: same length; the first match gains one unit and keeps its own name and price
    ensures forall i {:trigger FirstIndexOf(cart, a.id, i)} :: FirstIndexOf(cart, a.id, i) ==>
      && |r| == |cart|
      && r[i] == CartItem(cart[i].id, cart[i].name, cart[i].price, cart[i].quantity + 1)
      && forall j :: 0 <= j < |cart| && j != i ==> r[j] == cart[j]
    // either way the existing entries keep their positions, and the article is now in the cart
    ensures |cart| <= |r| <= |cart| + 1
    ensures forall j :: 0 <= j < |cart| && cart[j].id != a.id ==> r[j] == cart[j]
    ensures HasId(r, a.id)
  {
    var i := FindIndex(cart, a.id);
    if i >= 0 then
      assert cart[i].id == a.id;
      cart[i := cart[i].(quantity := cart[i].quantity + 1)]
    else
      assert (cart + [NewItem(a)])[|cart|].id == a.id;
      cart + [NewItem(a)]
  }

  /** The whole click handler: load (a missing cart is empty), merge; the result is what is
      written back under "cart". */
  function AddToCartHandler(stored: Option<seq<CartItem>>, a: Article): (r: seq<CartItem>)
    ensures stored.None? ==> r == [CartItem(a.id, a.name, a.price, 1)]
    ensures stored.Some? ==> TotalQuantity(r) == TotalQuantity(stored.value) + 1
  {
    var cart := LoadCart(stored);
    AddToCartTotal(cart, a);
    AddToCart(cart, a)
  }

  /** `ArticleDetailsGuest` renders nothing for a null article (`if (!article) return null`),
      so its button, and with it the merge, is only reachable for a selected article. */
  function GuestAddToCart(selected: Option<Article>, stored: Option<seq<CartItem>>)
    : (r: Option<seq<CartItem>>)
    ensures r.Some? <==> selected.Some?
    ensures r.Some? ==> r.value == AddToCartHandler(stored, selected.value)
  {
    match selected
    case None => None
    case Some(a) => Some(AddToCartHandler(stored, a))
  }

  // ---------------------------------------------------------------------------
  // Properties

  lemma {:induction false} TotalAppend(cart: seq<CartItem>, x: CartItem)
    ensures TotalQuantity(cart + [x]) == TotalQuantity(cart) + x.quantity
    decreases |cart|
  {
    if |cart| > 0 {
      assert (cart + [x])[1..] == cart[1..] + [x];
      TotalAppend(cart[1..], x);
    }
  }

  lemma {:induction false} TotalUpdate(cart: seq<CartItem>, i: int, x: CartItem)
    requires 0 <= i < |cart|
    ensures TotalQuantity(cart[i := x]) == TotalQuantity(cart) - cart[i].quantity + x.quantity
    decreases |cart|
  {
    if i > 0 {
      assert cart[i := x][1..] == cart[1..][i - 1 := x];
      TotalUpdate(cart[1..], i - 1, x);
    }
  }

  /** Adding one article raises the total quantity in the cart by exactly one, in both branches. */
  lemma AddToCartTotal(cart: seq<CartItem>, a: Article)
    ensures TotalQuantity(AddToCart(cart, a)) == TotalQuantity(cart) + 1
  {
    var i := FindIndex(cart, a.id);
    if i >= 0 {
      TotalUpdate(cart, i, cart[i].(quantity := cart[i].quantity + 1));
    } else {
      TotalAppend(cart, NewItem(a));
    }
  }

  /** Adding keeps the ids unique, and leaves exactly one entry for the article. */
  lemma AddToCartKeepsIdsUnique(cart: seq<CartItem>, a: Article)
    requires UniqueIds(cart)
    ensures UniqueIds(AddToCart(cart, a))
    ensures forall j :: 0 <= j < |AddToCart(cart, a)| && AddToCart(cart, a)[j].id == a.id ==>
              FirstIndexOf(AddToCart(cart, a), a.id, j)
  {
  }

  /** An independent, entry-by-entry definition of the merge: walk the cart, bump the first
      entry with the id and copy the rest; append a new entry if the walk finds none. */
  function MergeRef(cart: seq<CartItem>, a: Article): seq<CartItem>
    decreases |cart|
  {
    if |cart| == 0 then [NewItem(a)]
    else if cart[0].id == a.id then [cart[0].(quantity := cart[0].quantity + 1)] + cart[1..]
    else [cart[0]] + MergeRef(cart[1..], a)
  }

  /** `AddToCart` (find-then-update-or-append) agrees with the walking definition on every cart. */
  lemma {:induction false} AddToCartMatchesReference(cart: seq<CartItem>, a: Article)
    ensures AddToCart(cart, a) == MergeRef(cart, a)
    decreases |cart|
  {
    if |cart| > 0 && cart[0].id != a.id {
      AddToCartMatchesReference(cart[1..], a);
      var i := FindIndex(cart, a.id);
      if i >= 0 {
        assert FindIndex(cart[1..], a.id) == i - 1;
        assert cart[i := cart[i].(quantity := cart[i].quantity + 1)]
            == [cart[0]] + cart[1..][i - 1 := cart[i].(quantity := cart[i].quantity + 1)];
      } else {
        assert cart + [NewItem(a)] == [cart[0]] + (cart[1..] + [NewItem(a)]);
      }
    } else if |cart| > 0 {
      assert FindIndex(cart, a.id) == 0;
      assert cart[0 := cart[0].(quantity := cart[0].quantity + 1)]
          == [cart[0].(quantity := cart[0].quantity + 1)] + cart[1..];
    }
  }

  /** Clicking "Add to Cart" `n` times for one article, starting from an empty cart, leaves one
      entry for it with quantity `n`. */
  function ClickTimes(stored: Option<seq<CartItem>>, a: Article, n: nat): seq<CartItem>
    decreases n
  {
    if n == 0 then LoadCart(stored) else AddToCartHandler(Some(ClickTimes(stored, a, n - 1)), a)
  }

  lemma {:induction false} RepeatedClicks(a: Article, n: nat)
    requires n >= 1
    ensures ClickTimes(None, a, n) == [CartItem(a.id, a.name, a.price, n)]
    decreases n
  {
    if n > 1 {
      RepeatedClicks(a, n - 1);
      var c := ClickTimes(None, a, n - 1);
      assert FirstIndexOf(c, a.id, 0);
    }
  }
}

=== FILE: entities.dfy ===
/** The records the components receive from the article and order endpoints, and the
    records kept in the shopping cart. Prices are whole numbers and timestamps are integers. */
module Entities {
  import opened JsValues

  /** An article as the shop lists it. `name` may be missing (`null`/`undefined`); the
      remaining display-only fields (image, description) are not needed by any rule. */
  datatype Article = Article(
    id: int,
    name: Option<string>,
    price: int,
    quantity: int,
    createdAt: int)

  /** One cart entry, `{ id, name, price, quantity }`, as stored under the "cart" key. */
  datatype CartItem = CartItem(id: int, name: Option<string>, price: int, quantity: int)

  /** One line of an order as the order panel lists it. */
  datatype OrderItem = OrderItem(name: string, quantity: int, price: int)

  /** An order. `contact` holds the display-only string fields (customer name, e-mail,
      phone, address, payment method, ...). */
  datatype Order = Order(
    id: int,
    status: string,
    createdAt: int,
    processedAt: Option<int>,
    items: seq<OrderItem>,
    contact: map<string, string>)

  /** Sort keys, for `Sorting.SortBy`. */
  function Price(a: Article): int { a.price }

  function ArticleCreatedAt(a: Article): int { a.createdAt }

  function OrderCreatedAt(o: Order): int { o.createdAt }
}

=== FILE: guest_shop.dfy ===
/** The guest shop page (`WebshopGuestDashboard`) and its search sidebar (`FiltersSidebar`):
    only articles in stock are listed, the sidebar narrows them by a case-insensitive name
    prefix, a select box orders them by price, and clicking a card opens its details. */
module GuestShop {
  import opened JsValues
  import opened Entities
  import Text
  import Seqs
  import Sorting

  // ---------------------------------------------------------------------------
  // Listing rules

  predicate InStock(a: Article) {
    a.quantity > 0
  }

  /** `response.data.filter(article => article.quantity > 0)`. */
  function Available(data: seq<Article>): (r: seq<Article>)
    ensures Seqs.IsSubsequence(r, data)
    ensures forall i :: 0 <= i < |r| ==> r[i].quantity > 0
    ensures forall i :: 0 <= i < |data| && data[i].quantity > 0 ==> data[i] in r
    ensures forall x :: multiset(r)[x] == if x.quantity > 0 then multiset(data)[x] else 0
  {
    Seqs.FilterIsSubsequence(data, InStock);
    Seqs.FilterCounts(data, InStock);
    Seqs.Filter(data, InStock)
  }

  /** The sidebar's test: `a.name && a.name.toLowerCase().startsWith(value.toLowerCase())`;
      a missing or empty name is falsy. */
  predicate NameStartsWith(a: Article, query: string)
    // character by character: the name is at least as long as the query, and its first
    // |query| characters fold to the query's
    ensures NameStartsWith(a, query) <==>
      a.name.Some? && a.name.value != "" && |query| <= |a.name.value|
      && forall i :: 0 <= i < |query| ==> Text.LowerChar(a.name.value[i]) == Text.LowerChar(query[i])
  {
    a.name.Some? && a.name.value != "" && Text.StartsWith(Text.Lower(a.name.value), Text.Lower(query))
  }

  function SearchMatcher(query: string): Article -> bool {
    a => NameStartsWith(a, query)
  }

  /** `handleSearchChange`'s list: the articles whose name starts with the query, ignoring case. */
  function SearchFilter(articles: seq<Article>, query: string): (r: seq<Article>)
    ensures Seqs.IsSubsequence(r, articles)
    ensures forall i :: 0 <= i < |r| ==>
      r[i].name.Some? && |r[i].name.value| > 0 && |query| <= |r[i].name.value|
      && Text.Lower(r[i].name.value)[..|query|] == Text.Lower(query)
    ensures forall i :: 0 <= i < |articles| && NameStartsWith(articles[i], query) ==> articles[i] in r
    ensures forall x :: multiset(r)[x] == if NameStartsWith(x, query) then multiset(articles)[x] else 0
  {
    Seqs.FilterIsSubsequence(articles, SearchMatcher(query));
    Seqs.FilterCounts(articles, SearchMatcher(query));
    Seqs.Filter(articles, SearchMatcher(query))
  }

  /** `getSortedArticles`: a sorted copy for "price-asc" / "price-desc", an unchanged copy for
      "default" and every other key. */
  function GetSorted(articles: seq<Article>, sortBy: string): (r: seq<Article>)
    ensures multiset(r) == multiset(articles)
    ensures sortBy == "price-asc" ==> Sorting.Ordered(r, Price, true)
    ensures sortBy == "price-desc" ==> Sorting.Ordered(r, Price, false)
    ensures sortBy != "price-asc" && sortBy != "price-desc" ==> r == articles
  {
    if sortBy == "price-asc" then
      Sorting.SortByOrdered(articles, Price, true);
      Sorting.SortBy(articles, Price, true)
    else if sortBy == "price-desc" then
      Sorting.SortByOrdered(articles, Price, false);
      Sorting.SortBy(articles, Price, false)
    else articles
  }

  // ---------------------------------------------------------------------------
  // Page state

  /** The page's state; `search` is the sidebar's own input, which starts empty each time the
      sidebar is shown, because hiding it unmounts it. */
  datatype Dashboard = Dashboard(
    articles: seq<Article>,
    filtered: seq<Article>,
    showFilters: bool,
    sortBy: string,
    selected: Option<Article>,
    showDetails: bool,
    search: string)

  function Initial(): Dashboard {
    Dashboard([], [], false, "default", None, false, "")
  }

  datatype ShopEvent =
    | Fetched(response: Response<seq<Article>>)   // the GET on mount
    | Search(value: string)                        // typing in the sidebar
    | ToggleFilters
    | SelectSort(key: string)
    | OpenDetails(index: int)                      // click on the index-th visible card
    | CloseDetails

  /** The cards on screen: `getSortedArticles(filteredArticles)`. */
  function Visible(d: Dashboard): seq<Article> {
    GetSorted(d.filtered, d.sortBy)
  }

  /** One event. Only a fetch replaces the listed articles; only a fetch or a keystroke in the
      shown sidebar replaces the filtered list; a keystroke while the sidebar is hidden cannot
      happen and changes nothing; a card can only be opened from the cards on screen. */
  function Step(d: Dashboard, e: ShopEvent): (r: Dashboard)
    ensures !e.Fetched? ==> r.articles == d.articles
    ensures r.filtered != d.filtered ==> e.Fetched? || (e.Search? && d.showFilters)
    ensures e.Search? && !d.showFilters ==> r == d
    ensures r.selected != d.selected && r.selected.Some? ==> e.OpenDetails? && r.selected.value in Visible(d)
    ensures e.CloseDetails? ==> r.selected.None? && !r.showDetails
    ensures e.SelectSort? ==> r == d.(sortBy := e.key)
  {
    match e
    case Fetched(Ok(data)) =>
      var available := Available(data);
      d.(articles := available, filtered := available)
    case Fetched(Failed(_)) => d
    case Search(value) =>
      if d.showFilters then HandleFilter(d, SearchFilter(d.articles, value)).(search := value) else d
    case ToggleFilters => d.(showFilters := !d.showFilters, search := "")
    case SelectSort(key) => d.(sortBy := key)
    case OpenDetails(i) =>
      var shown := Visible(d);
      if 0 <= i < |shown| then d.(selected := Some(shown[i]), showDetails := true) else d
    case CloseDetails => d.(selected := None, showDetails := false)
  }

  /** `handleFilter`: the sidebar's list replaces `filteredArticles` wholesale. */
  function HandleFilter(d: Dashboard, list: seq<Article>): (r: Dashboard)
    ensures r.filtered == list
    ensures r.articles == d.articles && r.sortBy == d.sortBy && r.selected == d.selected
    ensures r.showDetails == d.showDetails && r.showFilters == d.showFilters
  {
    d.(filtered := list)
  }

  function Run(d: Dashboard, events: seq<ShopEvent>): Dashboard
    decreases |events|
  {
    if |events| == 0 then d else Run(Step(d, events[0]), events[1..])
  }

  /** What the page maintains: every listed article is in stock, the filtered list is drawn
      from the listed articles in their order, and the details modal is open exactly when an
      article is selected, which is then in stock too. */
  predicate Invariant(d: Dashboard) {
    && (forall i :: 0 <= i < |d.articles| ==> d.articles[i].quantity > 0)
    && Seqs.IsSubsequence(d.filtered, d.articles)
    && (d.showDetails <==> d.selected.Some?)
    && (d.selected.Some? ==> d.selected.value.quantity > 0)
  }

  // ---------------------------------------------------------------------------
  // Properties

  lemma InitialInvariant()
    ensures Invariant(Initial())
  {
  }

  /** Filtered articles are in stock whenever the invariant holds. */
  lemma FilteredInStock(d: Dashboard)
    requires Invariant(d)
    ensures forall i :: 0 <= i < |d.filtered| ==> d.filtered[i].quantity > 0
  {
    Seqs.SubsequenceMembers(d.filtered, d.articles);
  }

  /** Every event keeps the invariant. */
  lemma StepInvariant(d: Dashboard, e: ShopEvent)
    requires Invariant(d)
    ensures Invariant(Step(d, e))
  {
    match e
    case Fetched(Ok(data)) =>
      Seqs.SubsequenceReflexive(Available(data));
    case OpenDetails(i) =>
      var shown := Visible(d);
      if 0 <= i < |shown| {
        FilteredInStock(d);
        assert shown[i] in multiset(d.filtered);
      }
    case _ =>
  }

  lemma {:induction false} RunInvariant(d: Dashboard, events: seq<ShopEvent>)
    requires Invariant(d)
    ensures Invariant(Run(d, events))
    decreases |events|
  {
    if |events| > 0 {
      StepInvariant(d, events[0]);
      RunInvariant(Step(d, events[0]), events[1..]);
    }
  }

  /** Whatever the user does, every card on screen shows an article in stock. */
  lemma VisibleInStock(events: seq<ShopEvent>)
    ensures forall a :: a in Visible(Run(Initial(), events)) ==> a.quantity > 0
  {
    var d := Run(Initial(), events);
    RunInvariant(Initial(), events);
    FilteredInStock(d);
    forall a | a in Visible(d) ensures a.quantity > 0 {
      assert a in multiset(Visible(d));
    }
  }

  /** After a successful fetch both lists hold exactly the in-stock articles, in server order. */
  lemma FetchSetsBothLists(d: Dashboard, data: seq<Article>, status: Option<int>)
    ensures Step(d, Fetched(Ok(data))).articles == Seqs.Filter(data, InStock)
    ensures Step(d, Fetched(Ok(data))).filtered == Step(d, Fetched(Ok(data))).articles
    ensures Step(d, Fetched(Failed(status))) == d
  {
  }

  /** Opening a card selects it and shows the modal; closing clears both. */
  lemma DetailsOpenClose(d: Dashboard, i: int)
    requires 0 <= i < |Visible(d)|
    ensures Step(d, OpenDetails(i)).selected == Some(Visible(d)[i])
    ensures Step(d, OpenDetails(i)).showDetails
    ensures Step(Step(d, OpenDetails(i)), CloseDetails).selected.None?
    ensures !Step(Step(d, OpenDetails(i)), CloseDetails).showDetails
  {
  }

  /** Price sorting is stable: articles of equal price keep their relative order. */
  lemma GetSortedStable(articles: seq<Article>, sortBy: string, price: int)
    ensures Seqs.Filter(GetSorted(articles, sortBy), Sorting.WithKey(Price, price))
         == Seqs.Filter(articles, Sorting.WithKey(Price, price))
  {
    if sortBy == "price-asc" {
      Sorting.SortByStable(articles, Price, true, price);
    } else if sortBy == "price-desc" {
      Sorting.SortByStable(articles, Price, false, price);
    }
  }

  /** An empty query keeps exactly the articles that have a non-empty name. */
  lemma EmptyQueryKeepsNamed(articles: seq<Article>)
    ensures forall i :: 0 <= i < |articles| ==>
      (articles[i] in SearchFilter(articles, "") <==> articles[i].name.Some? && articles[i].name.value != "")
  {
  }

  /** Articles without a (non-empty) name are never kept, whatever the query. */
  lemma NamelessNeverKept(articles: seq<Article>, query: string, a: Article)
    requires a.name.None? || a.name.value == ""
    ensures a !in SearchFilter(articles, query)
  {
  }

  /** Letter case in the query does not matter (for ASCII letters). */
  lemma SearchIgnoresCase(articles: seq<Article>, query: string)
    ensures SearchFilter(articles, Text.Upper(query)) == SearchFilter(articles, query)
    ensures SearchFilter(articles, Text.Lower(query)) == SearchFilter(articles, query)
  {
    Text.LowerOfUpper(query);
    Text.LowerIdempotent(query);
    Seqs.FilterSamePredicate(articles, SearchMatcher(Text.Upper(query)), SearchMatcher(query));
    Seqs.FilterSamePredicate(articles, SearchMatcher(Text.Lower(query)), SearchMatcher(query));
  }

  /** Shortening the query never loses an article: the list for a prefix of the query contains
      the list for the query. Since the list is recomputed from all articles on each keystroke,
      deleting characters brings back what typing removed. */
  lemma ShorterQueryKeepsMore(articles: seq<Article>, query: string, k: nat)
    requires k <= |query|
    ensures forall a :: a in SearchFilter(articles, query) ==> a in SearchFilter(articles, query[..k])
  {
  }

  /** The sidebar's list depends only on the articles and the current input, not on earlier
      input: after any keystrokes, the list equals a fresh search for the current text. */
  lemma SearchForgetsHistory(d: Dashboard, v1: string, v2: string)
    requires d.showFilters
    ensures Step(Step(d, Search(v1)), Search(v2)).filtered == SearchFilter(d.articles, v2)
    ensures Step(Step(d, Search(v1)), Search(v2)) == Step(d, Search(v2))
  {
  }
}

=== FILE: home_articles.dfy ===
/** The admin article table (`HomeArticles`): three text filters (name, price, quantity) and a
    date sort, recomputed from the fetched products on every render. */
module HomeArticles {
  import opened JsValues
  import opened Entities
  import Text
  import Seqs
  import Sorting

  /** The three filter inputs; all start empty. */
  datatype ProductFilter = ProductFilter(name: string, price: string, quantity: string)

  /** `p.name.toLowerCase().includes(filter.name.toLowerCase())`. */
  predicate NameMatch(f: ProductFilter, p: Article)
    ensures f.name == "" ==> (NameMatch(f, p) <==> p.name.Some?)
    ensures NameMatch(f, p) ==> p.name.Some? && |f.name| <= |p.name.value|
  {
    p.name.Some? && Text.Contains(Text.Lower(p.name.value), Text.Lower(f.name))
  }

  /** `filter.price ? p.price.toString().includes(filter.price) : true`. */
  predicate PriceMatch(f: ProductFilter, p: Article)
    ensures f.price == "" ==> PriceMatch(f, p)
    ensures f.price == Text.DecimalString(p.price) ==> PriceMatch(f, p)
    ensures |f.price| > |Text.DecimalString(p.price)| ==> !PriceMatch(f, p)
  {
    f.price != "" ==> Text.Contains(Text.DecimalString(p.price), f.price)
  }

  /** `filter.quantity ? p.quantity.toString().includes(filter.quantity) : true`. */
  predicate QuantityMatch(f: ProductFilter, p: Article)
    ensures f.quantity == "" ==> QuantityMatch(f, p)
    ensures f.quantity == Text.DecimalString(p.quantity) ==> QuantityMatch(f, p)
    ensures |f.quantity| > |Text.DecimalString(p.quantity)| ==> !QuantityMatch(f, p)
  {
    f.quantity != "" ==> Text.Contains(Text.DecimalString(p.quantity), f.quantity)
  }

  predicate Matches(f: ProductFilter, p: Article) {
    NameMatch(f, p) && PriceMatch(f, p) && QuantityMatch(f, p)
  }

  /** The tests of the three `.filter` calls, and of all three together. */
  function NameTest(f: ProductFilter): Article -> bool { p => NameMatch(f, p) }

  function PriceTest(f: ProductFilter): Article -> bool { p => PriceMatch(f, p) }

  function QuantityTest(f: ProductFilter): Article -> bool { p => QuantityMatch(f, p) }

  function MatchTest(f: ProductFilter): Article -> bool { p => Matches(f, p) }

  /** `p.name.toLowerCase()` throws a TypeError for a product without a name, and the first
      filter evaluates it for every product. */
  predicate SomeNameMissing(products: seq<Article>) {
    exists i | 0 <= i < |products| :: products[i].name.None?
  }

  /** The three chained `.filter` calls: name, then price, then quantity. The survivors keep
      their source order, and each product matching every filter keeps all its occurrences. */
  function FilterChain(products: seq<Article>, f: ProductFilter): (r: seq<Article>)
    ensures Seqs.IsSubsequence(r, products)
    ensures forall x :: multiset(r)[x] == if Matches(f, x) then multiset(products)[x] else 0
    ensures forall x :: x in r ==> x in products && Matches(f, x)
    ensures forall x :: x in products && Matches(f, x) ==> x in r
  {
    var byName := Seqs.Filter(products, NameTest(f));
    var byPrice := Seqs.Filter(byName, PriceTest(f));
    var r := Seqs.Filter(byPrice, QuantityTest(f));
    ChainIsOneFilter(products, f);
    Seqs.FilterIsSubsequence(products, MatchTest(f));
    Seqs.FilterCounts(products, MatchTest(f));
    CountsGiveMembers(r, products, f);
    r
  }

  /** The three filters in a row are one filter by all three tests. */
  lemma ChainIsOneFilter(products: seq<Article>, f: ProductFilter)
    ensures Seqs.Filter(Seqs.Filter(Seqs.Filter(products, NameTest(f)), PriceTest(f)), QuantityTest(f))
         == Seqs.Filter(products, MatchTest(f))
  {
    var both := Seqs.Both(NameTest(f), PriceTest(f));
    Seqs.FilterFilter(products, NameTest(f), PriceTest(f));
    Seqs.FilterFilter(products, both, QuantityTest(f));
    Seqs.FilterSamePredicate(products, Seqs.Both(both, QuantityTest(f)), MatchTest(f));
  }

  /** Counts as the filter chain keeps them determine membership. */
  lemma CountsGiveMembers(r: seq<Article>, products: seq<Article>, f: ProductFilter)
    requires forall x :: multiset(r)[x] == if Matches(f, x) then multiset(products)[x] else 0
    ensures forall x :: x in r ==> x in products && Matches(f, x)
    ensures forall x :: x in products && Matches(f, x) ==> x in r
  {
    forall x | x in r ensures x in products && Matches(f, x) {
      assert x in multiset(r);
    }
    forall x | x in products && Matches(f, x) ensures x in r {
      assert x in multiset(products);
    }
  }

  /** The `filtered` pipeline: the filter chain, then the stable date sort. `None` is the
      render that throws. */
  function Filtered(products: seq<Article>, f: ProductFilter, sortAsc: bool): (r: Option<seq<Article>>)
    ensures r.None? <==> exists i :: 0 <= i < |products| && products[i].name.None?
    ensures r.Some? ==> forall x :: multiset(r.value)[x] == if Matches(f, x) then multiset(products)[x] else 0
    ensures r.Some? ==> forall x :: x in r.value <==> x in products && Matches(f, x)
    ensures r.Some? ==> Sorting.Ordered(r.value, ArticleCreatedAt, sortAsc)
  {
    if SomeNameMissing(products) then None
    else
      var kept := FilterChain(products, f);
      Sorting.SortByOrdered(kept, ArticleCreatedAt, sortAsc);
      var r := Sorting.SortBy(kept, ArticleCreatedAt, sortAsc);
      SameElements(kept, r);
      Some(r)
  }

  /** Two sequences with the same multiset have the same members. */
  lemma SameElements(s: seq<Article>, t: seq<Article>)
    requires multiset(s) == multiset(t)
    ensures forall x :: x in s <==> x in t
  {
    forall x ensures x in s <==> x in t {
      assert x in s <==> x in multiset(s);
      assert x in t <==> x in multiset(t);
    }
  }

  // ---------------------------------------------------------------------------
  // Component state

  datatype HomeState = HomeState(products: seq<Article>, filter: ProductFilter, sortAsc: bool)

  /** Nothing loaded, empty filters, ascending date order. */
  function Initial(): HomeState {
    HomeState([], ProductFilter("", "", ""), true)
  }

  datatype HomeEvent =
    | Fetched(response: Response<seq<Article>>)
    | SetName(name: string)
    | SetPrice(price: string)
    | SetQuantity(quantity: string)
    | ToggleSort

  /** Each input replaces only its own field (`{ ...filter, name: e.target.value }`, ...). */
  function Step(h: HomeState, e: HomeEvent): (r: HomeState)
    ensures e.SetName? ==> r.filter.name == e.name && r.filter.price == h.filter.price
                           && r.filter.quantity == h.filter.quantity
    ensures e.SetPrice? ==> r.filter.price == e.price && r.filter.name == h.filter.name
                            && r.filter.quantity == h.filter.quantity
    ensures e.SetQuantity? ==> r.filter.quantity == e.quantity && r.filter.name == h.filter.name
                               && r.filter.price == h.filter.price
    ensures e.ToggleSort? ==> r.sortAsc != h.sortAsc && r.filter == h.filter
    ensures !e.ToggleSort? ==> r.sortAsc == h.sortAsc
    ensures !e.Fetched? ==> r.products == h.products
    ensures e.Fetched? ==> r.filter == h.filter && r.sortAsc == h.sortAsc
    ensures e.Fetched? && e.response.Ok? ==> r.products == e.response.body
    ensures e.Fetched? && e.response.Failed? ==> r == h
  {
    match e
    case Fetched(Ok(data)) => h.(products := data)
    case Fetched(Failed(_)) => h
    case SetName(v) => h.(filter := h.filter.(name := v))
    case SetPrice(v) => h.(filter := h.filter.(price := v))
    case SetQuantity(v) => h.(filter := h.filter.(quantity := v))
    case ToggleSort => h.(sortAsc := !h.sortAsc)
  }

  // ---------------------------------------------------------------------------
  // Properties

  /** The filter inputs are independent: typing in one and then another gives the same state
      in either order, and only the latest text of an input counts. */
  lemma FilterEditsCommute(h: HomeState, name: string, price: string, quantity: string)
    ensures Step(Step(h, SetName(name)), SetPrice(price))
            == Step(Step(h, SetPrice(price)), SetName(name))
    ensures Step(Step(h, SetPrice(price)), SetQuantity(quantity))
            == Step(Step(h, SetQuantity(quantity)), SetPrice(price))
    ensures Step(Step(h, SetName(name)), SetQuantity(quantity))
            == Step(Step(h, SetQuantity(quantity)), SetName(name))
    ensures Step(Step(h, SetName(price)), SetName(name)) == Step(h, SetName(name))
  {
  }

  /** Pressing the sort button twice restores the state. */
  lemma ToggleSortTwice(h: HomeState)
    ensures Step(Step(h, ToggleSort), ToggleSort) == h
  {
  }

  /** With every filter empty, the table shows all products, only reordered by date. */
  lemma EmptyFiltersKeepAll(products: seq<Article>, sortAsc: bool)
    requires forall i :: 0 <= i < |products| ==> products[i].name.Some?
    ensures Filtered(products, ProductFilter("", "", ""), sortAsc).Some?
    ensures multiset(Filtered(products, ProductFilter("", "", ""), sortAsc).value) == multiset(products)
  {
    var f := ProductFilter("", "", "");
    var byName := Seqs.Filter(products, p => NameMatch(f, p));
    Seqs.FilterAll(products, p => NameMatch(f, p));
    Seqs.FilterAll(byName, p => PriceMatch(f, p));
    Seqs.FilterAll(byName, p => QuantityMatch(f, p));
    assert FilterChain(products, f) == products;
  }

  /** An empty name filter matches every named product, whatever the other filters say. */
  lemma EmptyNameMatchesAll(f: ProductFilter, p: Article)
    requires f.name == "" && p.name.Some?
    ensures NameMatch(f, p)
  {
  }

  /** The name filter ignores the letter case of the filter text (ASCII). */
  lemma NameFilterIgnoresCase(f: ProductFilter, p: Article)
    ensures NameMatch(f.(name := Text.Upper(f.name)), p) == NameMatch(f, p)
  {
    Text.LowerOfUpper(f.name);
  }

  /** It ignores the letter case of the product name too (ASCII). */
  lemma NameMatchIgnoresProductCase(f: ProductFilter, p: Article)
    requires p.name.Some?
    ensures NameMatch(f, p.(name := Some(Text.Upper(p.name.value)))) == NameMatch(f, p)
  {
    Text.LowerOfUpper(p.name.value);
  }

  /** The quantity filter is a text test on the decimal rendering, not a numeric one: "1"
      keeps quantities 1, 10 and 21 but not 5. */
  lemma QuantityFilterIsTextual()
    ensures Text.Contains(Text.DecimalString(10), "1")
    ensures Text.Contains(Text.DecimalString(21), "1")
    ensures !Text.Contains(Text.DecimalString(5), "1")
  {
    assert Text.DecimalString(10) == "10";
    assert Text.OccursAt("10", "1", 0);
    assert Text.DecimalString(21) == "21";
    assert Text.OccursAt("21", "1", 1);
    assert Text.DecimalString(5) == "5";
  }

  /** A product is listed under a quantity-only filter exactly when its rendered quantity
      contains the filter text. */
  lemma QuantityOnlyFilter(products: seq<Article>, q: string, sortAsc: bool, p: Article)
    requires q != ""
    requires forall i :: 0 <= i < |products| ==> products[i].name.Some?
    requires p in products
    ensures Filtered(products, ProductFilter("", "", q), sortAsc).Some?
    ensures p in Filtered(products, ProductFilter("", "", q), sortAsc).value
        <==> Text.Contains(Text.DecimalString(p.quantity), q)
  {
    var f := ProductFilter("", "", q);
    EmptyNameMatchesAll(f, p);
    var r := Filtered(products, f, sortAsc).value;
    if p in r {
      var i :| 0 <= i < |r| && r[i] == p;
    }
  }

  /** A missing name anywhere makes the table throw, whatever the filters are. */
  lemma MissingNameThrows(products: seq<Article>, f: ProductFilter, sortAsc: bool, i: int)
    requires 0 <= i < |products| && products[i].name.None?
    ensures Filtered(products, f, sortAsc).None?
  {
  }
}

=== FILE: js_values.dfy ===
/** The loosely typed JavaScript values the forms and payloads carry, and the
    outcome of an HTTP request as the handlers observe it. */
module JsValues {
  import Text

  /** A value that may be `null`/`undefined`. */
  datatype Option<+T> = None | Some(value: T) {
    function GetOr(default: T): T {
      match this
      case Some(v) => v
      case None => default
    }
  }

  /** What an awaited axios call delivers: the response body, or a rejection carrying the
      HTTP status when the server answered (`err.response?.status`). */
  datatype Response<+T> = Ok(body: T) | Failed(status: Option<int>) {
    /** The handlers' `status === 401 || status === 403` test. */
    predicate Unauthorized() {
      Failed? && status.Some? && (status.value == 401 || status.value == 403)
    }
  }

  /** A field value of a plain object. Numbers are integral (fractional prices are not modelled). */
  datatype Value = Undefined | Null | Num(n: int) | Str(s: string)

  /** A plain object: field name to value; an absent field reads as `undefined`. */
  type Record = map<string, Value>

  function Get(rec: Record, key: string): Value {
    if key in rec then rec[key] else Undefined
  }

  /** `String(v)`, the conversion parseInt/parseFloat apply to their argument first. */
  function ToString(v: Value): string {
    match v
    case Undefined => "undefined"
    case Null => "null"
    case Num(n) => Text.DecimalString(n)
    case Str(s) => s
  }

  /** `{ ...prev, [name]: value }`: the shared body of both forms' `handleChange`. */
  function SetField(form: Record, name: string, value: string): (r: Record)
    ensures r.Keys == form.Keys + {name}
    ensures Get(r, name) == Str(value)
    ensures forall k :: k != name ==> Get(r, k) == Get(form, k)
  {
    form[name := Str(value)]
  }

  /** Writing a field twice keeps only the last value (each keystroke replaces the field). */
  lemma SetFieldLastWins(form: Record, name: string, v1: string, v2: string)
    ensures SetField(SetField(form, name, v1), name, v2) == SetField(form, name, v2)
  {
  }
}

=== FILE: order_panel.dfy ===
/** The admin order modal (`OrderDetailsPanel`): shows an order and offers three buttons that
    set its status. Each button PUTs the order with the new status; the modal's own status
    text and the parent are updated only once the PUT succeeds. There is no rule about which
    status may follow which. */
module OrderPanel {
  import opened JsValues
  import opened Entities

  const Preparing := "U PRIPREMI"
  const Rejected := "ODBIJENO"
  const Completed := "ZAVRSENO"

  /** The statuses the three buttons request. */
  const Buttons: seq<string> := [Preparing, Rejected, Completed]

  /** The `order` prop and the `status` shown in the modal. */
  datatype Panel = Panel(order: Order, status: string)

  /** `useState(order.status)`. */
  function Open(order: Order): (p: Panel)
    ensures p.order == order && p.status == order.status
  {
    Panel(order, order.status)
  }

  /** `{ ...order, status: newStatus }`. */
  function WithStatus(o: Order, s: string): (r: Order)
    ensures r.status == s
    ensures r.id == o.id && r.createdAt == o.createdAt && r.processedAt == o.processedAt
    ensures r.items == o.items && r.contact == o.contact
  {
    o.(status := s)
  }

  /** `PUT {API}/{order.id}` with the updated order. */
  datatype StatusRequest = PutOrder(id: int, body: Order)

  /** What a click produces: the request sent, and the order handed to `onUpdate`, if any. */
  datatype StatusReaction = StatusReaction(request: StatusRequest, updated: Option<Order>)

  /** `handleStatusChange(newStatus)`. The body is built from the `order` prop, not from the
      status on screen. */
  function ChangeStatus(p: Panel, newStatus: string, put: Response<()>): (r: (Panel, StatusReaction))
    ensures r.1.request == PutOrder(p.order.id, WithStatus(p.order, newStatus))
    ensures r.0.order == p.order
    ensures put.Ok? ==> r.0.status == newStatus && r.1.updated == Some(WithStatus(p.order, newStatus))
    ensures put.Failed? ==> r.0 == p && r.1.updated.None?
  {
    var updated := WithStatus(p.order, newStatus);
    if put.Ok? then (p.(status := newStatus), StatusReaction(PutOrder(p.order.id, updated), Some(updated)))
    else (p, StatusReaction(PutOrder(p.order.id, updated), None))
  }

  /** A series of button clicks, each with the outcome of its PUT. */
  function Clicks(p: Panel, clicks: seq<(string, Response<()>)>): (r: Panel)
    ensures r.order == p.order
    ensures r.status == p.status || exists i :: 0 <= i < |clicks| && clicks[i].1.Ok? && r.status == clicks[i].0
    decreases |clicks|
  {
    if |clicks| == 0 then p else Clicks(ChangeStatus(p, clicks[0].0, clicks[0].1).0, clicks[1..])
  }

  /** The status of the last click whose PUT succeeded, or `shown` if none did. */
  function LastAccepted(shown: string, clicks: seq<(string, Response<()>)>): string
    decreases |clicks|
  {
    if |clicks| == 0 then shown
    else if clicks[|clicks| - 1].1.Ok? then clicks[|clicks| - 1].0
    else LastAccepted(shown, clicks[..|clicks| - 1])
  }

  // ---------------------------------------------------------------------------
  // Properties

  /** The updated order differs from the original in its status alone: restoring the old
      status gives the original back. */
  lemma WithStatusOnlyStatus(o: Order, s: string)
    ensures WithStatus(WithStatus(o, s), o.status) == o
    ensures WithStatus(o, o.status) == o
  {
  }

  /** There is no transition guard: from any displayed status, each button's status can be
      set, the one already shown included. */
  lemma NoTransitionGuard(p: Panel, i: int)
    requires 0 <= i < |Buttons|
    ensures ChangeStatus(p, Buttons[i], Ok(())).0.status == Buttons[i]
    ensures ChangeStatus(p, p.status, Ok(())).0 == p
  {
  }

  /** After a success the status on screen and the status handed to the parent agree. */
  lemma ShownMatchesReported(p: Panel, s: string)
    ensures ChangeStatus(p, s, Ok(())).1.updated.Some?
    ensures ChangeStatus(p, s, Ok(())).1.updated.value.status == ChangeStatus(p, s, Ok(())).0.status
  {
  }

  /** After any clicks, the modal shows the status of the last successful one; failed PUTs
      leave no trace. The prop is never changed by the modal itself. */
  lemma {:induction false} ClicksShowLastAccepted(p: Panel, clicks: seq<(string, Response<()>)>)
    ensures Clicks(p, clicks).status == LastAccepted(p.status, clicks)
    ensures Clicks(p, clicks).order == p.order
    decreases |clicks|
  {
    if |clicks| > 0 {
      var p1 := ChangeStatus(p, clicks[0].0, clicks[0].1).0;
      ClicksShowLastAccepted(p1, clicks[1..]);
      LastAcceptedShift(p.status, clicks);
    }
  }

  /** Peeling the first click off the front instead of the last one off the back. */
  lemma {:induction false} LastAcceptedShift(shown: string, clicks: seq<(string, Response<()>)>)
    requires |clicks| > 0
    ensures LastAccepted(if clicks[0].1.Ok? then clicks[0].0 else shown, clicks[1..])
         == LastAccepted(shown, clicks)
    decreases |clicks|
  {
    if |clicks| > 1 {
      var n := |clicks|;
      if !clicks[n - 1].1.Ok? {
        assert clicks[1..][..n - 2] == clicks[..n - 1][1..];
        LastAcceptedShift(shown, clicks[..n - 1]);
      }
    }
  }

  /** Every request carries the prop's fields with the clicked status, whatever the modal
      shows: after "ODBIJENO" succeeds, a later click still sends the prop's items and contact
      details with the new status. */
  lemma RequestFromProp(p: Panel, s1: string, s2: string, put: Response<()>)
    ensures ChangeStatus(ChangeStatus(p, s1, Ok(())).0, s2, put).1.request
         == PutOrder(p.order.id, WithStatus(p.order, s2))
  {
  }
}

=== FILE: orders_list.dfy ===
/** The admin order table (`OrdersList`): orders sorted by creation date (newest first by
    default) and cut into pages of five, with Prev/Next buttons. */
module OrdersList {
  import opened JsValues
  import opened Entities
  import Sorting

  const PageSize: nat := 5

  function Min(a: int, b: int): int {
    if a <= b then a else b
  }

  /** `[...orders].sort(...)` by `created_at`, ascending when `sortAsc`, otherwise descending. */
  function SortOrders(orders: seq<Order>, sortAsc: bool): (r: seq<Order>)
    ensures multiset(r) == multiset(orders)
    ensures Sorting.Ordered(r, OrderCreatedAt, sortAsc)
  {
    Sorting.SortByOrdered(orders, OrderCreatedAt, sortAsc);
    Sorting.SortBy(orders, OrderCreatedAt, sortAsc)
  }

  /** `Math.ceil(n / PAGE_SIZE)`: the fewest pages of five that hold `n` orders. */
  function TotalPages(n: nat): (t: nat)
    ensures n <= t * PageSize
    ensures t == 0 || (t - 1) * PageSize < n
    ensures t == 0 <==> n == 0
  {
    (n + PageSize - 1) / PageSize
  }

  /** How `Array.prototype.slice` reads an index for an array of length `n`: a negative index
      counts from the end, and the result is clamped to 0..n. */
  function RelativeIndex(k: int, n: nat): (r: nat)
    ensures r <= n
    ensures 0 <= k <= n ==> r == k
  {
    if k < 0 then (if n + k < 0 then 0 else n + k) else if k > n then n else k
  }

  /** `s.slice(start, end)`. */
  function Slice<T>(s: seq<T>, start: int, end: int): (r: seq<T>)
    ensures |r| <= |s|
    ensures 0 <= start <= end <= |s| ==> r == s[start..end]
    ensures 0 <= end <= start ==> r == []
  {
    var from := RelativeIndex(start, |s|);
    var to := RelativeIndex(end, |s|);
    if from < to then s[from..to] else []
  }

  /** `sortedOrders.slice((p - 1) * PAGE_SIZE, p * PAGE_SIZE)`. */
  function Page(sorted: seq<Order>, p: int): (r: seq<Order>)
    ensures |r| <= PageSize
    ensures p >= 1 ==> r == sorted[Min((p - 1) * PageSize, |sorted|)..Min(p * PageSize, |sorted|)]
    ensures p > TotalPages(|sorted|) ==> r == []
  {
    Slice(sorted, (p - 1) * PageSize, p * PageSize)
  }

  /** Pages 1..k, one after the other. */
  function PagesUpTo(sorted: seq<Order>, k: nat): seq<Order>
    decreases k
  {
    if k == 0 then [] else PagesUpTo(sorted, k - 1) + Page(sorted, k)
  }

  // ---------------------------------------------------------------------------
  // Component state

  /** `orders` as fetched, the sort direction, and the page shown. */
  datatype OrdersView = OrdersView(orders: seq<Order>, sortAsc: bool, currentPage: int)

  /** Nothing loaded, newest first, page 1. */
  function Initial(): OrdersView {
    OrdersView([], false, 1)
  }

  datatype ListEvent = Fetched(response: Response<seq<Order>>) | ToggleSort | Prev | Next

  /** `disabled={currentPage === 1}`. */
  predicate PrevDisabled(v: OrdersView) {
    v.currentPage == 1
  }

  /** `disabled={currentPage === totalPages}`. */
  predicate NextDisabled(v: OrdersView) {
    v.currentPage == TotalPages(|v.orders|)
  }

  /** A click on a disabled button does nothing; the sort toggle does not reset the page. */
  function Step(v: OrdersView, e: ListEvent): (r: OrdersView)
    // the page moves by at most one, and never through a disabled button
    ensures -1 <= r.currentPage - v.currentPage <= 1
    ensures r.currentPage < v.currentPage ==> e.Prev? && !PrevDisabled(v)
    ensures r.currentPage > v.currentPage ==> e.Next? && !NextDisabled(v)
    // an enabled button does move the page
    ensures e.Prev? ==> r.currentPage == if PrevDisabled(v) then v.currentPage else v.currentPage - 1
    ensures e.Next? ==> r.currentPage == if NextDisabled(v) then v.currentPage else v.currentPage + 1
    // only a successful fetch replaces the orders, and only the toggle flips the direction
    ensures r.orders != v.orders ==> e.Fetched? && e.response.Ok?
    ensures e.Fetched? && e.response.Ok? ==> r.orders == e.response.body
    ensures r.sortAsc != v.sortAsc <==> e.ToggleSort?
  {
    match e
    case Fetched(Ok(data)) => v.(orders := data)
    case Fetched(Failed(_)) => v
    case ToggleSort => v.(sortAsc := !v.sortAsc)
    case Prev => if PrevDisabled(v) then v else v.(currentPage := v.currentPage - 1)
    case Next => if NextDisabled(v) then v else v.(currentPage := v.currentPage + 1)
  }

  /** The rows on screen. */
  function Shown(v: OrdersView): seq<Order> {
    Page(SortOrders(v.orders, v.sortAsc), v.currentPage)
  }

  function ClickNext(v: OrdersView, k: nat): OrdersView
    decreases k
  {
    if k == 0 then v else ClickNext(Step(v, Next), k - 1)
  }

  // ---------------------------------------------------------------------------
  // Properties

  /** The pages 1..k are exactly the first 5k orders (or all of them). */
  lemma {:induction false} PagesUpToPrefix(sorted: seq<Order>, k: nat)
    ensures PagesUpTo(sorted, k) == sorted[..Min(k * PageSize, |sorted|)]
    decreases k
  {
    if k > 0 {
      PagesUpToPrefix(sorted, k - 1);
      var a := Min((k - 1) * PageSize, |sorted|);
      var b := Min(k * PageSize, |sorted|);
      assert sorted[..a] + sorted[a..b] == sorted[..b];
    }
  }

  /** Concatenating pages 1..totalPages gives back the whole sorted list: no order is lost or
      shown twice. */
  lemma PagesCoverAll(sorted: seq<Order>)
    ensures PagesUpTo(sorted, TotalPages(|sorted|)) == sorted
  {
    PagesUpToPrefix(sorted, TotalPages(|sorted|));
    assert sorted[..|sorted|] == sorted;
  }

  /** Every page but the last is full. */
  lemma FullPages(sorted: seq<Order>, p: int)
    requires 1 <= p < TotalPages(|sorted|)
    ensures |Page(sorted, p)| == PageSize
  {
  }

  /** Prev is disabled exactly at page 1, so no sequence of clicks takes the page below 1. */
  lemma PageStaysPositive(v: OrdersView, e: ListEvent)
    requires v.currentPage >= 1
    ensures Step(v, e).currentPage >= 1
  {
  }

  /** Once orders are loaded and the page is in range, Prev, Next and the sort toggle keep it
      in range. */
  lemma PageStaysInRange(v: OrdersView, e: ListEvent)
    requires 1 <= v.currentPage <= TotalPages(|v.orders|)
    requires !e.Fetched?
    ensures 1 <= Step(v, e).currentPage <= TotalPages(|Step(v, e).orders|)
  {
  }

  /** With no orders there are 0 pages, so Next is never disabled: every click moves to a
      further, empty page ("Page k of 0"). */
  lemma {:induction false} NoOrdersNextRunsAway(v: OrdersView, k: nat)
    requires |v.orders| == 0 && v.currentPage >= 1
    ensures ClickNext(v, k).currentPage == v.currentPage + k
    ensures ClickNext(v, k).orders == v.orders
    ensures Shown(ClickNext(v, k)) == []
    ensures !NextDisabled(ClickNext(v, k))
    decreases k
  {
    if k > 0 {
      assert !NextDisabled(v);
      NoOrdersNextRunsAway(Step(v, Next), k - 1);
    }
  }
}

=== FILE: parse_int.dfy ===
/** The global `parseInt(string, radix)` of ECMAScript (ECMA-262, section 19.2.5), as the two
    form handlers call it: with radix 10, and with no radix at all. The argument is a string
    (the caller applies `String(...)` first, see `JsValues.ToString`). */
module ParseInt {
  import Text
  import opened JsValues

  /** A JavaScript number as parseInt can produce it: an integer or NaN.
      (parseInt("-0") is -0 in JavaScript; that sign of zero is not kept here.) */
  datatype Number = Finite(value: int) | NaN

  function Negate(x: Number): Number {
    match x
    case Finite(v) => Finite(-v)
    case NaN => NaN
  }

  /** StrWhiteSpaceChar: the WhiteSpace and LineTerminator code points of ECMA-262,
      sections 12.2 and 12.3 (TAB, VT, FF, SP, NBSP, ZWNBSP, the Zs category, LF, CR, LS, PS). */
  predicate IsStrWhiteSpace(c: char) {
    var k := c as int;
    k == 0x09 || k == 0x0A || k == 0x0B || k == 0x0C || k == 0x0D || k == 0x20
    || k == 0xA0 || k == 0x1680 || (0x2000 <= k <= 0x200A) || k == 0x2028 || k == 0x2029
    || k == 0x202F || k == 0x205F || k == 0x3000 || k == 0xFEFF
  }

  /** Step 2: drop leading white space. */
  function TrimStart(s: string): (r: string)
    ensures |r| > 0 ==> !IsStrWhiteSpace(r[0])
    decreases |s|
  {
    if |s| > 0 && IsStrWhiteSpace(s[0]) then TrimStart(s[1..]) else s
  }

  /** Steps 3-4: the text after an optional '+' or '-'. */
  function Unsigned(s: string): string {
    if |s| > 0 && (s[0] == '+' || s[0] == '-') then s[1..] else s
  }

  /** Step 5: ToInt32 of the radix argument, with its 32-bit wrap-around; `undefined` gives 0. */
  function RadixArgument(radix: Option<int>): (r: int)
    ensures -0x8000_0000 <= r < 0x8000_0000
    ensures radix.None? ==> r == 0
    ensures radix.Some? && -0x8000_0000 <= radix.value < 0x8000_0000 ==> r == radix.value
  {
    match radix
    case None => 0
    case Some(x) =>
      var m := x % 0x1_0000_0000;
      if m >= 0x8000_0000 then m - 0x1_0000_0000 else m
  }

  /** Step 9: a "0x" or "0X" prefix. */
  predicate HasHexPrefix(s: string) {
    |s| >= 2 && s[0] == '0' && (s[1] == 'x' || s[1] == 'X')
  }

  /** Value of a character as a digit of radix up to 36; 36 when it is no digit at all. */
  function DigitValue(c: char): (d: nat)
    ensures d <= 36
    ensures Text.IsDecimalDigit(c) <==> d < 10
    ensures Text.IsDecimalDigit(c) ==> d == c as int - '0' as int
    ensures d < 36 <==> Text.IsDecimalDigit(c) || 'a' <= c <= 'z' || 'A' <= c <= 'Z'
  {
    if '0' <= c <= '9' then c as int - '0' as int
    else if 'a' <= c <= 'z' then c as int - 'a' as int + 10
    else if 'A' <= c <= 'Z' then c as int - 'A' as int + 10
    else 36
  }

  /** Step 10: the length of the longest prefix made of radix-`radix` digits. */
  function DigitPrefixLen(s: string, radix: nat): (n: nat)
    ensures n <= |s|
    ensures forall i :: 0 <= i < n ==> DigitValue(s[i]) < radix
    ensures n < |s| ==> DigitValue(s[n]) >= radix
    decreases |s|
  {
    if |s| > 0 && DigitValue(s[0]) < radix then 1 + DigitPrefixLen(s[1..], radix) else 0
  }

  /** Step 13: the integer a digit string denotes, most significant digit first. */
  function DigitsValue(ds: string, radix: nat): nat
    decreases |ds|
  {
    if |ds| == 0 then 0 else DigitsValue(ds[..|ds| - 1], radix) * radix + DigitValue(ds[|ds| - 1])
  }

  /** Steps 10-13: read the longest digit prefix; NaN when there is none. */
  function ReadDigits(ds: string, base: nat): Number {
    var end := DigitPrefixLen(ds, base);
    if end == 0 then NaN else Finite(DigitsValue(ds[..end], base))
  }

  /** Steps 6-13 on the unsigned text, for a radix already known to be 0 or in 2..36. */
  function ParseUnsigned(u: string, r: int): Number
    requires r == 0 || 2 <= r <= 36
  {
    var hex := (r == 0 || r == 16) && HasHexPrefix(u);
    var digits := if hex then u[2..] else u;
    var base := if hex then 16 else if r == 0 then 10 else r;
    ReadDigits(digits, base)
  }

  /** Steps 3-15 on text without leading white space; a leading '-' negates (step 15). */
  function ParseTrimmed(s: string, r: int): Number {
    if r != 0 && (r < 2 || r > 36) then NaN
    else
      var x := ParseUnsigned(Unsigned(s), r);
      if |s| > 0 && s[0] == '-' then Negate(x) else x
  }

  /** `parseInt(input, radix)`; `radix == None` is the call without a radix. */
  function ParseInt(input: string, radix: Option<int>): (r: Number)
    // a radix other than 0 outside 2..36, after ToInt32, gives NaN whatever the text
    ensures RadixArgument(radix) != 0 && (RadixArgument(radix) < 2 || RadixArgument(radix) > 36) ==> r == NaN
    // a number needs at least one character after the white space
    ensures r.Finite? ==> |TrimStart(input)| > 0
    // only a leading '-' makes the result negative
    ensures r.Finite? && r.value < 0 ==> TrimStart(input)[0] == '-'
  {
    ParseTrimmed(TrimStart(input), RadixArgument(radix))
  }

  /** `parseInt(s, 10)`, as the article editor calls it. */
  function ParseDecimal(s: string): Number {
    ParseInt(s, Some(10))
  }

  /** `parseInt(s)`, as the add-article form calls it. */
  function ParseNoRadix(s: string): Number {
    ParseInt(s, None)
  }

  // ---------------------------------------------------------------------------
  // Properties

  /** Letter digits read the same in either case: `parseInt("1a", 16)` equals `parseInt("1A", 16)`. */
  lemma DigitValueIgnoresCase(c: char)
    ensures DigitValue(Text.LowerChar(c)) == DigitValue(c)
  {
  }

  /** Trimming removes exactly a run of leading white space: the result is a suffix of the
      input, and everything before it is white space. */
  lemma {:induction false} TrimStartRemovesWhiteSpace(s: string)
    ensures |TrimStart(s)| <= |s|
    ensures TrimStart(s) == s[|s| - |TrimStart(s)|..]
    ensures forall i :: 0 <= i < |s| - |TrimStart(s)| ==> IsStrWhiteSpace(s[i])
    decreases |s|
  {
    if |s| > 0 && IsStrWhiteSpace(s[0]) {
      TrimStartRemovesWhiteSpace(s[1..]);
    }
  }

  /** Text made only of digits of the radix is read to its end. */
  lemma AllDigitsPrefix(s: string, radix: nat)
    requires forall i :: 0 <= i < |s| ==> DigitValue(s[i]) < radix
    ensures DigitPrefixLen(s, radix) == |s|
  {
  }

  /** The decimal digits of `n` denote `n`. */
  lemma {:induction false} NatStringValue(n: nat)
    ensures DigitsValue(Text.NatString(n), 10) == n
    decreases n
  {
    var s := Text.NatString(n);
    if n >= 10 {
      NatStringValue(n / 10);
      assert s[..|s| - 1] == Text.NatString(n / 10);
    }
  }

  /** parseInt reads back the decimal rendering of every integer, with radix 10 and without a
      radix alike: `parseInt(String(n), 10) == parseInt(String(n)) == n`. */
  lemma ParseDecimalRoundTrip(n: int)
    ensures ParseDecimal(Text.DecimalString(n)) == Finite(n)
    ensures ParseNoRadix(Text.DecimalString(n)) == Finite(n)
  {
    RadixTen();
    var s := Text.DecimalString(n);
    var m := if n < 0 then -n else n;
    var digits := Text.NatString(m);
    assert TrimStart(s) == s;
    assert Unsigned(s) == digits;
    assert !HasHexPrefix(digits) by {
      if |digits| >= 2 { assert Text.IsDecimalDigit(digits[1]); }
    }
    AllDigitsPrefix(digits, 10);
    assert digits[..|digits|] == digits;
    NatStringValue(m);
  }

  lemma RadixTen()
    ensures RadixArgument(Some(10)) == 10
  {
  }

  /** Leading white space never changes the result. */
  lemma {:induction false} SkipsLeadingWhiteSpace(w: string, s: string, radix: Option<int>)
    requires forall i :: 0 <= i < |w| ==> IsStrWhiteSpace(w[i])
    ensures ParseInt(w + s, radix) == ParseInt(s, radix)
    decreases |w|
  {
    TrimStartSkips(w, s);
  }

  lemma {:induction false} TrimStartSkips(w: string, s: string)
    requires forall i :: 0 <= i < |w| ==> IsStrWhiteSpace(w[i])
    ensures TrimStart(w + s) == TrimStart(s)
    decreases |w|
  {
    if |w| > 0 {
      assert (w + s)[0] == w[0];
      assert (w + s)[1..] == w[1..] + s;
      TrimStartSkips(w[1..], s);
    } else {
      assert w + s == s;
    }
  }

  /** Reading stops at the first character that is not a decimal digit: `parseInt("12abc", 10)`
      is 12, whatever follows the digits. */
  lemma StopsAtNonDigit(d: string, t: string)
    requires |d| > 0 && forall i :: 0 <= i < |d| ==> Text.IsDecimalDigit(d[i])
    requires |t| == 0 || !Text.IsDecimalDigit(t[0])
    ensures ParseDecimal(d + t) == Finite(DigitsValue(d, 10))
  {
    var s := d + t;
    assert s[0] == d[0];
    DigitStartsClean(s);
    RadixTen();
    assert Unsigned(s) == s;
    PrefixOfDigits(d, t);
    assert s[..|d|] == d;
    assert ReadDigits(s, 10) == Finite(DigitsValue(d, 10));
  }

  /** Text that starts with a decimal digit is neither trimmed nor signed. */
  lemma DigitStartsClean(s: string)
    requires |s| > 0 && Text.IsDecimalDigit(s[0])
    ensures TrimStart(s) == s
    ensures Unsigned(s) == s
  {
  }

  lemma {:induction false} PrefixOfDigits(d: string, t: string)
    requires forall i :: 0 <= i < |d| ==> Text.IsDecimalDigit(d[i])
    requires |t| == 0 || !Text.IsDecimalDigit(t[0])
    ensures DigitPrefixLen(d + t, 10) == |d|
    decreases |d|
  {
    if |d| > 0 {
      assert (d + t)[1..] == d[1..] + t;
      PrefixOfDigits(d[1..], t);
    } else {
      assert d + t == t;
    }
  }

  /** `parseInt("12abc", 10)` is 12; `parseInt("", 10)` and `parseInt("abc", 10)` are NaN. */
  lemma TrailingGarbageExample()
    ensures ParseDecimal("12abc") == Finite(12)
    ensures ParseDecimal("") == NaN
    ensures ParseDecimal("abc") == NaN
  {
    TwelveThenLetters();
    EmptyIsNaN(Some(10));
    LettersOnly();
  }

  lemma TwelveThenLetters()
    ensures ParseDecimal("12abc") == Finite(12)
  {
    StopsAtNonDigit("12", "abc");
    assert "12" + "abc" == "12abc";
    assert DigitsValue("12", 10) == 12 by {
      assert "12"[..1] == "1";
      assert "1"[..0] == "";
    }
  }

  lemma LettersOnly()
    ensures ParseDecimal("abc") == NaN
  {
    RadixTen();
    assert TrimStart("abc") == "abc";
    assert DigitPrefixLen("abc", 10) == 0;
  }

  /** The empty text is NaN, for every radix. */
  lemma EmptyIsNaN(radix: Option<int>)
    ensures ParseInt("", radix) == NaN
  {
  }

  /** In radix 10 the result is NaN exactly when no digit follows the white space and the
      optional sign (step 13 of section 19.2.5 of ECMA-262): "-x", "+" and " .5" are NaN. */
  lemma NaNExactlyWithoutDigits(s: string)
    ensures ParseDecimal(s) == NaN <==> DigitPrefixLen(Unsigned(TrimStart(s)), 10) == 0
  {
    RadixTen();
  }

  /** A leading '-' negates the result of the rest (NaN stays NaN). */
  lemma MinusNegates(s: string, radix: Option<int>)
    requires |s| == 0 || (!IsStrWhiteSpace(s[0]) && s[0] != '+' && s[0] != '-')
    ensures ParseInt("-" + s, radix) == Negate(ParseInt(s, radix))
  {
    assert TrimStart("-" + s) == "-" + s;
    assert Unsigned("-" + s) == s;
    assert TrimStart(s) == s;
    assert Unsigned(s) == s;
  }

  /** Without a radix, text without a hexadecimal prefix reads exactly as with radix 10. */
  lemma NoRadixAgreesWithDecimal(s: string)
    requires !HasHexPrefix(Unsigned(TrimStart(s)))
    ensures ParseNoRadix(s) == ParseDecimal(s)
  {
    RadixTen();
    var t := TrimStart(s);
    assert ParseUnsigned(Unsigned(t), 0) == ParseUnsigned(Unsigned(t), 10);
  }

  /** ... and with a "0x" prefix the two calls differ: "0x1A" is 26 without a radix but 0 in radix 10. */
  lemma HexPrefixExample()
    ensures ParseNoRadix("0x1A") == Finite(26)
    ensures ParseDecimal("0x1A") == Finite(0)
  {
    HexWithoutRadix();
    HexWithRadixTen();
  }

  lemma HexWithoutRadix()
    ensures ParseNoRadix("0x1A") == Finite(26)
  {
    DigitStartsClean("0x1A");
    assert "0x1A"[2..] == "1A";
    assert ParseUnsigned("0x1A", 0) == ReadDigits("1A", 16);
    AllDigitsPrefix("1A", 16);
    assert "1A"[..2] == "1A";
    assert DigitsValue("1A", 16) == 26 by {
      assert "1A"[..1] == "1";
      assert "1"[..0] == "";
    }
  }

  lemma HexWithRadixTen()
    ensures ParseDecimal("0x1A") == Finite(0)
  {
    RadixTen();
    DigitStartsClean("0x1A");
    assert ParseUnsigned("0x1A", 10) == ReadDigits("0x1A", 10);
    assert DigitPrefixLen("0x1A", 10) == 1 by {
      assert "0x1A"[1..] == "x1A";
      assert DigitPrefixLen("x1A", 10) == 0;
    }
    assert "0x1A"[..1] == "0";
    assert DigitsValue("0", 10) == 0 by {
      assert "0"[..0] == "";
    }
  }

  /** The radix goes through ToInt32 first, so radices that agree modulo 2^32 agree. */
  lemma RadixWrapsAround(s: string, r: int)
    ensures ParseInt(s, Some(r + 0x1_0000_0000)) == ParseInt(s, Some(r))
  {
    assert (r + 0x1_0000_0000) % 0x1_0000_0000 == r % 0x1_0000_0000;
  }

  /** A radix outside 2..36 (other than 0) gives NaN whatever the text. */
  lemma BadRadixIsNaN(s: string, r: int)
    requires r == 1 || 37 <= r < 0x8000_0000
    ensures ParseInt(s, Some(r)) == NaN
  {
  }
}

=== FILE: payloads.dfy ===
/** The request bodies the admin forms send: each field either a form value copied as is or
    the result of a number conversion applied to the field's text. */
module Payloads {
  import opened JsValues
  import ParseInt

  /** A field of a request body: a value copied as is, the result of `parseInt`, or the result
      of `parseFloat` on the given text (floating-point parsing is not modelled). */
  datatype PayloadValue = Copied(v: Value) | IntOf(n: ParseInt.Number) | FloatOf(text: string)

  type Payload = map<string, PayloadValue>
}

=== FILE: seqs.dfy ===
/** `Array.prototype.filter` on immutable sequences, and what it keeps. */
module Seqs {

  /** The elements of `s` that satisfy `p`, in their original order. */
  function Filter<T(==)>(s: seq<T>, p: T -> bool): (r: seq<T>)
    ensures |r| <= |s|
    ensures forall i :: 0 <= i < |r| ==> r[i] in s && p(r[i])
    ensures forall i :: 0 <= i < |s| && p(s[i]) ==> s[i] in r
    decreases |s|
  {
    if |s| == 0 then []
    else if p(s[0]) then [s[0]] + Filter(s[1..], p)
    else Filter(s[1..], p)
  }

  /** `r` is obtained from `s` by deleting elements, without reordering the rest. */
  predicate IsSubsequence<T(==)>(r: seq<T>, s: seq<T>)
    decreases |s|
  {
    if |r| == 0 then true
    else if |s| == 0 then false
    else (r[0] == s[0] && IsSubsequence(r[1..], s[1..])) || IsSubsequence(r, s[1..])
  }

  /** Filtering keeps the survivors in their original relative order. */
  lemma {:induction false} FilterIsSubsequence<T>(s: seq<T>, p: T -> bool)
    ensures IsSubsequence(Filter(s, p), s)
    decreases |s|
  {
    if |s| > 0 {
      FilterIsSubsequence(s[1..], p);
      var r := Filter(s, p);
      if p(s[0]) {
        assert r[0] == s[0] && r[1..] == Filter(s[1..], p);
      }
    }
  }

  /** Filtering keeps every occurrence of a kept element and none of a dropped one. */
  lemma {:induction false} FilterMultiset<T>(s: seq<T>, p: T -> bool, x: T)
    ensures multiset(Filter(s, p))[x] == if p(x) then multiset(s)[x] else 0
    decreases |s|
  {
    if |s| > 0 {
      FilterMultiset(s[1..], p, x);
      assert s == [s[0]] + s[1..];
    }
  }

  /** The same fact for every element at once: the filter keeps each element's count when it
      passes and drops it entirely when it does not. */
  lemma FilterCounts<T>(s: seq<T>, p: T -> bool)
    ensures forall x :: multiset(Filter(s, p))[x] == if p(x) then multiset(s)[x] else 0
  {
    forall x ensures multiset(Filter(s, p))[x] == if p(x) then multiset(s)[x] else 0 {
      FilterMultiset(s, p, x);
    }
  }

  /** The test passed by the elements that pass both `p` and `q`. */
  function Both<T>(p: T -> bool, q: T -> bool): T -> bool {
    x => p(x) && q(x)
  }

  /** Filtering twice is filtering once by both tests. */
  lemma {:induction false} FilterFilter<T>(s: seq<T>, p: T -> bool, q: T -> bool)
    ensures Filter(Filter(s, p), q) == Filter(s, Both(p, q))
    decreases |s|
  {
    if |s| > 0 {
      FilterFilter(s[1..], p, q);
      if p(s[0]) {
        assert Filter(s, p)[1..] == Filter(s[1..], p);
      }
    }
  }

  /** A filter that every element passes is the identity. */
  lemma {:induction false} FilterAll<T>(s: seq<T>, p: T -> bool)
    requires forall i :: 0 <= i < |s| ==> p(s[i])
    ensures Filter(s, p) == s
    decreases |s|
  {
    if |s| > 0 {
      FilterAll(s[1..], p);
      assert s == [s[0]] + s[1..];
    }
  }

  /** Two predicates that agree on every element filter alike. */
  lemma {:induction false} FilterSamePredicate<T>(s: seq<T>, p: T -> bool, q: T -> bool)
    requires forall i :: 0 <= i < |s| ==> p(s[i]) == q(s[i])
    ensures Filter(s, p) == Filter(s, q)
    decreases |s|
  {
    if |s| > 0 {
      FilterSamePredicate(s[1..], p, q);
    }
  }

  lemma {:induction false} SubsequenceReflexive<T>(s: seq<T>)
    ensures IsSubsequence(s, s)
    decreases |s|
  {
    if |s| > 0 {
      SubsequenceReflexive(s[1..]);
    }
  }

  /** Every element of a subsequence is an element of the sequence. */
  lemma {:induction false} SubsequenceMembers<T>(r: seq<T>, s: seq<T>)
    requires IsSubsequence(r, s)
    ensures forall i :: 0 <= i < |r| ==> r[i] in s
    decreases |s|
  {
    if |r| > 0 {
      if r[0] == s[0] && IsSubsequence(r[1..], s[1..]) {
        SubsequenceMembers(r[1..], s[1..]);
        forall i | 0 <= i < |r| ensures r[i] in s {
          if i > 0 { assert r[i] == r[1..][i - 1]; }
        }
      } else {
        SubsequenceMembers(r, s[1..]);
      }
    }
  }
}

=== FILE: sorting.dfy ===
/** `[...xs].sort((a, b) => key(a) - key(b))` and its descending twin
    `(a, b) => key(b) - key(a)`: `Array.prototype.sort` is stable (ECMA-262 since 2019), so it
    is modelled by a stable insertion sort on an integer sort key. The result is a new sequence;
    the input is never changed. */
module Sorting {
  import Seqs

  /** `x` may precede `y` in the sorted output. */
  predicate InOrder<T>(key: T -> int, asc: bool, x: T, y: T) {
    if asc then key(x) <= key(y) else key(y) <= key(x)
  }

  /** Non-decreasing keys when `asc`, non-increasing otherwise. */
  predicate Ordered<T>(s: seq<T>, key: T -> int, asc: bool) {
    forall i, j :: 0 <= i < j < |s| ==> InOrder(key, asc, s[i], s[j])
  }

  /** Put `x` before the first element it may precede; elements with the same key as `x`
      therefore end up after it. */
  function Insert<T(==)>(x: T, s: seq<T>, key: T -> int, asc: bool): (r: seq<T>)
    ensures multiset(r) == multiset(s) + multiset{x}
    decreases |s|
  {
    if |s| == 0 then [x]
    else if InOrder(key, asc, x, s[0]) then [x] + s
    else
      assert s == [s[0]] + s[1..];
      [s[0]] + Insert(x, s[1..], key, asc)
  }

  function SortBy<T(==)>(s: seq<T>, key: T -> int, asc: bool): (r: seq<T>)
    ensures multiset(r) == multiset(s)
    decreases |s|
  {
    if |s| == 0 then []
    else
      assert s == [s[0]] + s[1..];
      Insert(s[0], SortBy(s[1..], key, asc), key, asc)
  }

  lemma {:induction false} InsertOrdered<T>(x: T, s: seq<T>, key: T -> int, asc: bool)
    requires Ordered(s, key, asc)
    ensures Ordered(Insert(x, s, key, asc), key, asc)
    decreases |s|
  {
    if |s| > 0 && !InOrder(key, asc, x, s[0]) {
      var t := Insert(x, s[1..], key, asc);
      InsertOrdered(x, s[1..], key, asc);
      assert forall y :: y in t ==> y == x || y in s[1..] by {
        forall y | y in t ensures y == x || y in s[1..] {
          assert y in multiset(t);
        }
      }
      var r := [s[0]] + t;
      forall i, j | 0 <= i < j < |r| ensures InOrder(key, asc, r[i], r[j]) {
        if i == 0 {
          assert r[j] in t;
        } else {
          assert r[i] == t[i - 1] && r[j] == t[j - 1];
        }
      }
    }
  }

  /** The sort result is ordered by the key in the requested direction. */
  lemma {:induction false} SortByOrdered<T>(s: seq<T>, key: T -> int, asc: bool)
    ensures Ordered(SortBy(s, key, asc), key, asc)
    decreases |s|
  {
    if |s| > 0 {
      SortByOrdered(s[1..], key, asc);
      InsertOrdered(s[0], SortBy(s[1..], key, asc), key, asc);
    }
  }

  /** The elements whose key is `k`. */
  function WithKey<T>(key: T -> int, k: int): T -> bool {
    x => key(x) == k
  }

  lemma {:induction false} InsertStable<T>(x: T, s: seq<T>, key: T -> int, asc: bool, k: int)
    ensures Seqs.Filter(Insert(x, s, key, asc), WithKey(key, k))
         == (if key(x) == k then [x] else []) + Seqs.Filter(s, WithKey(key, k))
    decreases |s|
  {
    var p := WithKey(key, k);
    if |s| == 0 {
      assert Seqs.Filter([x], p) == Seqs.Filter([], p) == [] || p(x);
    } else if InOrder(key, asc, x, s[0]) {
      assert ([x] + s)[1..] == s;
    } else {
      InsertStable(x, s[1..], key, asc, k);
      assert ([s[0]] + Insert(x, s[1..], key, asc))[1..] == Insert(x, s[1..], key, asc);
      assert s == [s[0]] + s[1..];
      if key(x) == k {
        assert !p(s[0]);
      }
    }
  }

  /** Stability: among elements with equal keys, the sort keeps the input order. */
  lemma {:induction false} SortByStable<T>(s: seq<T>, key: T -> int, asc: bool, k: int)
    ensures Seqs.Filter(SortBy(s, key, asc), WithKey(key, k)) == Seqs.Filter(s, WithKey(key, k))
    decreases |s|
  {
    if |s| > 0 {
      SortByStable(s[1..], key, asc, k);
      InsertStable(s[0], SortBy(s[1..], key, asc), key, asc, k);
    }
  }

  /** An input that is already ordered comes back unchanged. */
  lemma {:induction false} SortByOrderedInput<T>(s: seq<T>, key: T -> int, asc: bool)
    requires Ordered(s, key, asc)
    ensures SortBy(s, key, asc) == s
    decreases |s|
  {
    if |s| > 0 {
      assert Ordered(s[1..], key, asc);
      SortByOrderedInput(s[1..], key, asc);
      if |s| > 1 {
        assert InOrder(key, asc, s[0], s[1]);
      }
    }
  }
}

=== FILE: text.dfy ===
/** String helpers the components use: ASCII case folding (String.prototype.toLowerCase
    restricted to ASCII), startsWith, includes, and the decimal rendering of an integer
    (Number.prototype.toString for integral values). */
module Text {

  /** ASCII lower-casing of one character; every other character is left alone. */
  function LowerChar(c: char): char {
    if 'A' <= c <= 'Z' then (c as int + 32) as char else c
  }

  /** ASCII upper-casing of one character. */
  function UpperChar(c: char): char {
    if 'a' <= c <= 'z' then (c as int - 32) as char else c
  }

  function Lower(s: string): (r: string)
    ensures |r| == |s|
    ensures forall i :: 0 <= i < |s| ==> r[i] == LowerChar(s[i])
  {
    seq(|s|, i requires 0 <= i < |s| => LowerChar(s[i]))
  }

  function Upper(s: string): (r: string)
    ensures |r| == |s|
    ensures forall i :: 0 <= i < |s| ==> r[i] == UpperChar(s[i])
  {
    seq(|s|, i requires 0 <= i < |s| => UpperChar(s[i]))
  }

  /** `s.startsWith(prefix)`; every string starts with "". */
  predicate StartsWith(s: string, prefix: string) {
    |prefix| <= |s| && s[..|prefix|] == prefix
  }

  /** `needle` occurs in `s` at position `i`. */
  predicate OccursAt(s: string, needle: string, i: int) {
    0 <= i && i + |needle| <= |s| && s[i..i + |needle|] == needle
  }

  /** `s.includes(needle)`; every string includes "". */
  predicate Contains(s: string, needle: string)
    ensures needle == "" ==> Contains(s, needle)
    ensures needle == s ==> Contains(s, needle)
    ensures |needle| > |s| ==> !Contains(s, needle)
  {
    assert OccursAt(s, "", 0);
    assert OccursAt(s, s, 0);
    exists i | 0 <= i <= |s| :: OccursAt(s, needle, i)
  }

  /** Lower-casing is idempotent. */
  lemma LowerIdempotent(s: string)
    ensures Lower(Lower(s)) == Lower(s)
  {
  }

  /** Folding an upper-cased string gives the same result as folding the original. */
  lemma LowerOfUpper(s: string)
    ensures Lower(Upper(s)) == Lower(s)
  {
  }

  predicate IsDecimalDigit(c: char) {
    '0' <= c <= '9'
  }

  function DigitChar(d: int): (c: char)
    requires 0 <= d < 10
    ensures IsDecimalDigit(c)
  {
    ('0' as int + d) as char
  }

  /** Decimal rendering of a natural number, most significant digit first, no leading zeros. */
  function NatString(n: nat): (r: string)
    ensures |r| >= 1
    ensures forall i :: 0 <= i < |r| ==> IsDecimalDigit(r[i])
    ensures |r| > 1 ==> r[0] != '0'
    decreases n
  {
    if n < 10 then [DigitChar(n)] else NatString(n / 10) + [DigitChar(n % 10)]
  }

  /** `n.toString()` for an integral JavaScript number: an optional '-' then the digits. */
  function DecimalString(n: int): (r: string)
    ensures |r| >= 1
    ensures n < 0 <==> r[0] == '-'
    ensures n >= 0 ==> r == NatString(n)
    ensures n < 0 ==> r[1..] == NatString(-n)
  {
    if n < 0 then "-" + NatString(-n) else NatString(n)
  }
}
